=== FILE: README.md ===
# EXIF extraction engine — a Dafny model

`exif_extract.py` reads the EXIF metadata of a batch of JPEG files. Its
`ExifExtract` class does four things:

- it folds the files' metadata into a table with one record per file that
  has EXIF data;
- it keeps an ordered list of field headings, the union of every record's
  field names, starting with `filename, gps_lat_decimal, gps_lon_decimal`;
- it derives signed decimal latitude and longitude from the GPS
  degree/minute/second fields;
- it labels every heading for people.

Two renderers sit on top: `write_csv` writes the table as CSV, and
`pretty_print_exif` writes one record as `label: value` lines.

This project models that engine as pure functions over immutable data and
proves what it guarantees.

- **Records** (`records.dfy`) are Python dictionaries. Each is an
  insertion-ordered list of `(field, value)` pairs. Assigning a key that is
  already present overwrites its value where it stands; assigning a new key
  appends it.
- **Values** (`values.dfy`) are what the decoder returns. They are text,
  numbers, degree/minute/second triples, `None`, or any other value, given
  by its text and its truthiness.
- **Heading order** (`key_order.dfy`) is `dict.fromkeys`, modelled as a
  left-to-right insertion fold. The heading update
  `list(dict.fromkeys(old + keys))` is `KeyOrder.Union`.
- **The run** is split between two files:
  - `batch.dfy` holds the file-by-file loop, generic over what one file
    yields: abort, skip, or add a record;
  - `consolidation.dfy` holds what one file yields and the top-level
    `Consolidation.Extract`.
- **Coordinates** (`coordinates.dfy`) give `d + m/60 + s/3600`, negated for
  the references `"S"` and `"W"`.
- **Aliases** (`aliases.dfy`) give the generic label (underscores to spaces,
  ASCII `title()`, acronym fixes) and the two fixed labels of the decimal
  fields.
- **CSV** (`csv.dfy`) covers the header, cell escaping and body lines. Its
  partner is a reader that honours double quotes: reading back what was
  written returns every line, every field and every value text, as long as
  no value text holds a line break and no header name holds a comma, a
  double quote or a line break.
- **Pretty printing** (`pretty.dfy`, with the generic loop in
  `listing.dfy`) writes one line per truthy field other than the file name,
  in heading order. Reading the text back gives exactly those lines, as
  long as no label and no printed value holds a line break.
- **A worked scenario** (`scenario.dfy`) is a two-file run. It starts
  from the decoder's reports and proves the records built, the table and
  the headings of the run.

Five behaviours of the code are worth knowing before reading the model.

- **Missing GPS references abort the run.** The code indexes
  `gps_latitude_ref` directly (line 111). A latitude without its reference
  therefore raises `KeyError` and aborts the whole run. In the model that
  is `Error.MissingKey`. Line 115 does the same for the longitude.
- **Coordinates are modelled as degree/minute/second triples.** A coordinate
  field that is not a numeric triple is `Error.NotCoordinates`. This stands
  for the `TypeError` line 79 raises on a non-numeric value. Line 79 reads
  only the first three items, so it also accepts a longer numeric sequence.
  Such sequences are out of scope: the model treats every coordinate that
  is not a triple, these included, as `NotCoordinates`.
- **A file that cannot be opened is a separate error.** `open()` sits
  outside the `try` (line 90). Its failure is `Error.OpenFailed` and does
  not become `ExtractError`.
- **The raw GPS fields are headings too.** The code adds every key of every
  record to the headings, raw GPS fields included (lines 123-124). A run
  over a file with a make and a full GPS position, followed by a file with
  a make and a model, has the headings `filename, gps_lat_decimal,
  gps_lon_decimal, gps_latitude, gps_latitude_ref, gps_longitude,
  gps_longitude_ref, make, model`. `Scenario.ScenarioRun` proves this from
  the two decoder reports.
- **Some CSV cells cannot be read back by a standard reader.** A value with
  a double quote but no comma is written with its quotes doubled and no
  enclosing quotes (lines 162-166). A reader that follows section 2 of
  RFC 4180 misreads such a cell: `Csv.LoneQuoteMisread` shows that a lone
  `"` comes back as the empty field. Values and headings that hold a line
  break also break the line structure.

## Model

| member | source | states |
|---|---|---|
| KeyOrder.InsertSpec | exif_extract.py:123-124 | inserting keys into a duplicate-free key list keeps that list as a prefix, creates no duplicate, holds exactly the old and the inserted keys, and appends the new keys in the order of their first occurrence |
| KeyOrder.InsertAppend | exif_extract.py:123-124 | inserting a key sequence in two pieces is the same as inserting it at once |
| KeyOrder.InsertFresh | exif_extract.py:123-124 | inserting keys that are new and pairwise distinct appends them unchanged |
| KeyOrder.InsertKnown | exif_extract.py:123-124 | inserting keys that are all present changes nothing |
| KeyOrder.FromKeysDistinct | exif_extract.py:123-124 | `dict.fromkeys` of a duplicate-free list is that list |
| KeyOrder.UnionIsInsert | exif_extract.py:123-124 | the heading update on duplicate-free headings is insertion of the record's keys into them |
| KeyOrder.UnionSpec | exif_extract.py:123-124 | the heading update keeps the old headings as a prefix, has no duplicates, holds exactly the old headings and the record's keys, and appends only new keys, in the record's own order |
| KeyOrder.UnionIdempotent | exif_extract.py:123-124 | applying the heading update twice with the same record gives the same headings as applying it once |
| KeyOrder.UnionUnchanged | exif_extract.py:123-124 | the heading update leaves the headings unchanged exactly when every key of the record is already a heading |
| Records.Get | exif_extract.py:159 | a lookup finds a value exactly when the key is present, the value is stored under that key, and in a duplicate-free record it is the only value stored under it |
| Records.Put | exif_extract.py:105 | assignment keeps an existing key in place or appends a new one, the key then maps to the new value, and every other key keeps its value |
| Records.PutAll | exif_extract.py:103-105 | copying fields in order gives the key order of the insertion fold; each copied key maps to its last copied value and every other key keeps its value |
| Records.PutValid | exif_extract.py:109-115 | assignment never creates a duplicate key |
| Records.PutAllValid | exif_extract.py:104-105 | copying fields never creates a duplicate key |
| Records.PutFresh | exif_extract.py:105 | assigning a key the record lacks appends the pair at the end |
| Records.PutAllFresh | exif_extract.py:103-105 | copying fields whose keys are new and pairwise distinct appends them as they are, in order |
| Records.GetAppend | exif_extract.py:159 | appending pairs does not change the value of a key that is already present |
| Strings.ReplaceAll | exif_extract.py:162 | `str.replace` keeps the length when pattern and replacement have equal length, introduces no character absent from the text and the replacement, and removes a one-character pattern that the replacement lacks |
| Strings.ReplaceOneChar | exif_extract.py:162 | replacing a one-character pattern is substituting every occurrence of that character |
| Strings.LinesRoundTrip | exif_extract.py:150-169 | lines without line breaks, each written with a terminating line break, are read back exactly |
| Coordinates.DecimalDegrees | exif_extract.py:76-82 | the result is plus or minus `d + m/60 + s/3600`, negative exactly for the references "S" and "W" (stated as `r * 3600 = sign * (3600d + 60m + s)`) |
| Coordinates.Hemispheres | exif_extract.py:80-81 | south and west mirror north and east; any other reference gives the northern value |
| Coordinates.SignRule | exif_extract.py:79-81 | for non-negative components the sign of the result is decided by the reference alone |
| Coordinates.Monotone | exif_extract.py:79-81 | larger degrees, minutes and seconds never move the coordinate back toward zero, and when any of them is strictly larger the coordinate moves strictly further, north or east for most references and south or west for "S" and "W" |
| Aliases.Title | exif_extract.py:131 | ASCII `title()` keeps the length, upper-cases a letter that starts the text or follows a non-letter, lower-cases every other letter, and keeps non-letters |
| Aliases.TitleCharFold | exif_extract.py:131 | title-casing changes letter case only |
| Aliases.ReplaceFold | exif_extract.py:132-133 | a replacement whose pattern and replacement agree up to letter case changes letter case only |
| Aliases.Generic | exif_extract.py:130-133 | the generic label has the key's length and is the key, with underscores turned to spaces, up to letter case |
| Aliases.AliasShape | exif_extract.py:130-133 | apart from the two fixed labels, a label is its key up to letter case with underscores turned to spaces, so no underscore remains |
| Aliases.AliasTable | exif_extract.py:129-135 | the alias table has an entry for every heading and for the two decimal fields and nothing else, every entry is the field's label, and the decimal fields have their fixed labels |
| Batch.TableOrder | exif_extract.py:86-117 | the table holds, in file order, exactly one record for each file that added one, and nothing from the others |
| Batch.TableSnoc | exif_extract.py:117 | one more file appends its record, if it has one, at the end of the table |
| Batch.PicksSnoc | exif_extract.py:117 | the positions of the contributing files extend by the next file's position exactly when it adds a record |
| Batch.TableAppend | exif_extract.py:86-117 | processing two batches in turn gives the two tables one after the other |
| Batch.GrowSpec | exif_extract.py:85-126 | the headings start with the initial ones, have no duplicates, hold every key of every record, and hold nothing else |
| Batch.GrowPrefix | exif_extract.py:123-124 | later records only append headings: the headings after a table are a prefix of the headings after any longer table |
| Batch.Advance | exif_extract.py:117-124 | after a succeeding file the prefix still succeeds, the table gains the file's record if it has one, and the headings then gain that record's keys by the ordered union |
| Batch.Run | exif_extract.py:84-126 | the run succeeds exactly when every file succeeds; otherwise it returns the error of a file all of whose predecessors succeeded; on success it returns the table of contributing records and the headings folded over it |
| Batch.FirstFailure | exif_extract.py:86-117 | at most one file fails after only succeeding files, so the first failure is unique |
| Consolidation.AddDecimalSpec | exif_extract.py:108-115 | when the raw GPS field is present, its reference must be present (else the missing-key error) and it must be a triple (else the not-coordinates error); then the decimal field holds the converted value, is inserted in key order, and nothing else changes; without the raw field the record is unchanged |
| Consolidation.AddDecimalValid | exif_extract.py:108-115 | adding a decimal field keeps the record duplicate-free and keeps its existing keys in place |
| Consolidation.Copied | exif_extract.py:103-105 | the record starts with the file name and holds every decoder field with its last value, in first-occurrence order, without duplicates |
| Consolidation.BuildRecordValid | exif_extract.py:102-115 | when the decoder's GPS fields are readable the record is built, is duplicate-free and starts with `filename` |
| Consolidation.CopiedField | exif_extract.py:103-105 | a field other than `filename` is in the copied record exactly when the decoder reported it, and holds its last reported value |
| Consolidation.BuildRecordErrors | exif_extract.py:108-115 | a record is built exactly when each raw GPS field the decoder reports comes with its reference and is a degree/minute/second triple; when the latitude fails this, the error is the missing-key error for `gps_latitude_ref` if that reference is absent and the not-coordinates error otherwise; when the latitude is readable and the longitude fails, the error is the same choice for the longitude |
| Consolidation.CopiedReadable | exif_extract.py:103-115 | a raw GPS field of the copied record can be converted exactly when the decoder reported it with its reference and as a triple, and the reference is absent from the record exactly when the decoder did not report it |
| Consolidation.BuildRecordKeeps | exif_extract.py:103-115 | when the GPS fields are readable the record is built and every field other than the two decimal fields is as copied from the decoder |
| Consolidation.BuildRecordLatitude | exif_extract.py:108-111 | when the GPS fields are readable the record is built, and `gps_lat_decimal` is present exactly when `gps_latitude` is a decoder field, whose reference is then present too, and holds the converted latitude |
| Consolidation.BuildRecordLongitude | exif_extract.py:112-115 | when the GPS fields are readable the record is built, and `gps_lon_decimal` is present exactly when `gps_longitude` is a decoder field, whose reference is then present too, and holds the converted longitude |
| Consolidation.FileOutcome | exif_extract.py:90-117 | an unreadable file fails with `OpenFailed` for its path, a decoder failure fails with `ExtractError`, a file without EXIF data adds nothing; a file with EXIF data succeeds exactly when its GPS fields are readable, then adding its built record, and otherwise fails with the error of the build |
| Consolidation.HeadingsSpec | exif_extract.py:85-126 | the headings start with `filename, gps_lat_decimal, gps_lon_decimal` even for an empty table, have no duplicates, hold every field of every record, and hold nothing else |
| Consolidation.HeadingsGrow | exif_extract.py:123-124 | later files only append headings |
| Consolidation.Extract | exif_extract.py:64-135 | a run succeeds exactly when every file succeeds; a file whose predecessors all succeed and that fails decides the result, which is its error, so a decoder failure there gives `ExtractError`; on success the table is the contributing records in file order, the headings are their ordered union, the alias table labels them, and all three are coherent |
| Consolidation.TableRecords | exif_extract.py:86-117 | when no file fails, record `k` of the table is the record built from the `k`-th input with EXIF data, these inputs are in increasing order, and every input with EXIF data has its record in the table |
| Csv.EscapeCell | exif_extract.py:162-166 | an escaped cell contains a comma exactly when the value text does, is exactly the text with its quotes doubled and wrapped in double quotes when it does, and exactly the text with its quotes doubled, with no wrapping, when it does not; it holds no character other than the text's own and double quotes |
| Csv.Double | exif_extract.py:162 | `replace('"', '""')` substitutes `""` for every double quote and leaves every other character as it is |
| Csv.DoubleKeeps | exif_extract.py:162 | doubling quotes neither adds nor removes any other character |
| Csv.UndoubleDouble | exif_extract.py:162 | undoubling quotes inverts doubling them |
| Csv.CellRoundTrip | exif_extract.py:159-166 | every value text is read back exactly from its escaped cell |
| Csv.EscapedSealed | exif_extract.py:162-166 | no escaped cell holds a comma outside double quotes, and each ends outside quotes |
| Csv.JoinSplit | exif_extract.py:167-169 | such cells joined with commas split back into the same cells |
| Csv.RowRoundTrip | exif_extract.py:155-169 | a body line splits into one field per heading, and each reads back as the record's text for that heading, empty when the record lacks it |
| Csv.RowFields | exif_extract.py:155-169 | a body line has one field per heading; a field the record lacks is written as the empty field, a field holding `None` as `None`, and a text field as its escaped text |
| Csv.HeaderLabels | exif_extract.py:129-152 | for a run's result, the aliased header gives every heading its label, so its second and third names are the fixed labels of the decimal fields, and the plain header starts with `filename, gps_lat_decimal, gps_lon_decimal` |
| Csv.CsvLinesBack | exif_extract.py:150-169 | when names and values hold no line break, the written text splits back into exactly the written lines |
| Csv.CsvRoundTrip | exif_extract.py:137-169 | the CSV text reads back as one header line plus one line per record; the header splits into the header names, and every body field reads back as the record's text for its heading |
| Csv.LoneQuoteMisread | exif_extract.py:161-166 | a lone double quote is written as `""`, which an RFC 4180 reader takes for the empty field |
| Listing.Select | exif_extract.py:181-183 | the selected keys are exactly the keys that pass the test |
| Listing.SelectAppend | exif_extract.py:181-183 | selection distributes over concatenation, so selected keys keep their order |
| Listing.SelectDistinct | exif_extract.py:181-183 | selecting from distinct keys gives distinct keys |
| Listing.EmitLines | exif_extract.py:181-184 | the loop writes the renderings of the selected keys, one per line, in key order |
| Listing.EmitRoundTrip | exif_extract.py:181-184 | when no rendering of a selected key holds a line break, reading the loop's output back gives exactly those renderings |
| Pretty.ShownSpec | exif_extract.py:181-183 | a heading is printed exactly when the record holds a truthy value for it and it is not `filename`; printed headings do not repeat and keep heading order |
| Pretty.PrettyLines | exif_extract.py:171-184 | the printed text is, for any labels and values, the lines of the printed headings in heading order, each ended by a line break, a printed heading's line being its label, `": "` and the value's text |
| Pretty.PrettyRoundTrip | exif_extract.py:171-184 | when no label and no printed value holds a line break, the printed text reads back as one line per printed heading, in heading order, each the heading's label, `": "` and the value's text |
| Scenario.ScenarioCoordinates | exif_extract.py:79-81 | 10°30′0″ N is 10.5 and 20°0′0″ W is -20.0 |
| Scenario.BuildA | exif_extract.py:102-115 | the decoder report of file A (a make and a full GPS position at 10°30′0″ N, 20°0′0″ W) builds the record with the file name, the reported fields and the decimal fields 10.5 and -20.0, in that order |
| Scenario.BuildB | exif_extract.py:102-115 | the decoder report of file B (a make and a model) builds the record with the file name and those two fields and no decimal field |
| Scenario.ScenarioRun | exif_extract.py:84-126 | the run over the two reports succeeds, its table is A's record then B's, and its headings are `filename, gps_lat_decimal, gps_lon_decimal, gps_latitude, gps_latitude_ref, gps_longitude, gps_longitude_ref, make, model` |
| Scenario.ScenarioUnion | exif_extract.py:123-124 | the two heading updates of the worked run produce the expected list |
| Scenario.ScenarioHeadings | exif_extract.py:85-124 | a record with a make and a full GPS position, followed by a record with a make and a model, gives the headings `filename, gps_lat_decimal, gps_lon_decimal, gps_latitude, gps_latitude_ref, gps_longitude, gps_longitude_ref, make, model` |

## Left out

- The command-line block (lines 191-269) is not modelled: argument
  parsing, globbing, banners, exit codes and closing files are I/O
  plumbing.
- File opening, `exif.Image`, `has_exif`, `dir()` and `.get` (lines 48,
  90-105) are not modelled. The decoder is foreign code. Each file's
  outcome is given instead as `Consolidation.Decoded`: unreadable, decoder
  failure, no EXIF data, or the field list in `dir()` order.
- Verbose progress messages to standard error (lines 87-88 and 98-99) are
  not modelled. They do not affect the result.
- The run computes each file's outcome inside the loop, so files after the
  first failure are never looked at, as in the code. Outcomes are pure
  values, so nothing else about the order of I/O is modelled.
- Writes go to a text, not to a file object: `write_csv` and
  `pretty_print_exif` are modelled as the text they write.
- Coordinates.DecimalDegrees: computed over exact reals, not IEEE doubles,
  so rounding is not modelled.
- Values.Str: the text of a floating-point number is the parameter `num`,
  because Python's float formatting is not modelled. The text and truthiness
  of other decoder objects are carried by `Opaque`.
- Aliases.Title: models `str.title()` on ASCII letters only. Non-ASCII
  letters are treated as non-letters.
- Aliases.Generic: states the label up to letter case. It does not say
  which letters the four acronym replacements upper-case.
- Csv.CsvRoundTrip: requires header names without comma, double quote or
  line break, and value texts without line breaks. Outside those inputs the
  code's output cannot be read back, and no round trip is claimed.
- Pretty.PrettyRoundTrip: requires labels and printed value texts without
  line breaks. A line break there splits one printed line into several
  when read back; `Pretty.PrettyLines` states the written text for every
  input.
- Listing.EmitRoundTrip: requires renderings without line breaks, for the
  same reason.
- Consolidation.BuildRecordLatitude: assumes the decoder itself does not
  report a field named `gps_lat_decimal`. Such a field would be copied and
  could stand without `gps_latitude`.
- Consolidation.BuildRecordLongitude: assumes the decoder itself does not
  report a field named `gps_lon_decimal`. Such a field would be copied and
  could stand without `gps_longitude`.
- Consolidation.AddDecimalSpec: a coordinate that is not a
  degree/minute/second triple gives `NotCoordinates`. Line 79 instead
  converts a numeric sequence of more than three items from its first
  three, and raises `TypeError` or `IndexError` for other values. Longer
  sequences are out of scope, and the two Python errors are one.

=== FILE: aliases.dfy ===
/** Human-readable labels for field names (exif_extract.py lines 128-135),
    used for aliased CSV headers and the pretty printer. */
module Aliases {
  import opened Strings
  import opened FieldNames

  const LatDecimalAlias := "GPS Latitude  (decimal degrees)"
  const LonDecimalAlias := "GPS Longitude (decimal degrees)"

  predicate IsLetter(c: char) {
    'a' <= c <= 'z' || 'A' <= c <= 'Z'
  }

  function Upper(c: char): (u: char)
    requires IsLetter(c)
    ensures 'A' <= u <= 'Z'
  {
    if 'a' <= c <= 'z' then (c as int - 32) as char else c
  }

  function Lower(c: char): (l: char)
    requires IsLetter(c)
    ensures 'a' <= l <= 'z'
  {
    if 'A' <= c <= 'Z' then (c as int + 32) as char else c
  }

  /** A character with ASCII letter case ignored. */
  function Fold(c: char): char {
    if IsLetter(c) then Lower(c) else c
  }

  /** Title-casing changes letter case only. */
  lemma TitleCharFold(s: string, i: nat)
    requires i < |s|
    ensures Fold(TitleChar(s, i)) == Fold(s[i])
  {
  }

  /** A replacement whose pattern and replacement agree up to letter case
      changes letter case only. */
  lemma {:induction false} ReplaceFold(s: string, pat: string, rep: string)
    requires |pat| == |rep| > 0
    requires forall j :: 0 <= j < |pat| ==> Fold(pat[j]) == Fold(rep[j])
    ensures |ReplaceAll(s, pat, rep)| == |s|
    ensures forall i :: 0 <= i < |s| ==> Fold(ReplaceAll(s, pat, rep)[i]) == Fold(s[i])
    decreases |s|
  {
    var r := ReplaceAll(s, pat, rep);
    if |s| < |pat| {
    } else if s[..|pat|] == pat {
      var tail := s[|pat|..];
      ReplaceFold(tail, pat, rep);
      forall i | 0 <= i < |s| ensures Fold(r[i]) == Fold(s[i]) {
        if i < |pat| {
          assert r[i] == rep[i] && s[i] == pat[i];
        } else {
          assert r[i] == ReplaceAll(tail, pat, rep)[i - |pat|];
          assert s[i] == tail[i - |pat|];
        }
      }
    } else {
      var tail := s[1..];
      ReplaceFold(tail, pat, rep);
      forall i | 0 <= i < |s| ensures Fold(r[i]) == Fold(s[i]) {
        if i > 0 {
          assert r[i] == ReplaceAll(tail, pat, rep)[i - 1];
          assert s[i] == tail[i - 1];
        }
      }
    }
  }

  /** Replacing a character by a single character, position by position. */
  lemma {:induction false} SubstituteAt(s: string, c: char, x: char)
    ensures |SubstituteChar(s, c, [x])| == |s|
    ensures forall i :: 0 <= i < |s| ==> SubstituteChar(s, c, [x])[i] == if s[i] == c then x else s[i]
    decreases |s|
  {
    if s != [] {
      SubstituteAt(s[1..], c, x);
      var r := SubstituteChar(s, c, [x]);
      forall i | 0 <= i < |s| ensures r[i] == if s[i] == c then x else s[i] {
        if i > 0 {
          assert r[i] == SubstituteChar(s[1..], c, [x])[i - 1];
          assert s[i] == s[1..][i - 1];
        }
      }
    }
  }

  /** What `str.title()` makes of position `i` of `s`: a letter is upper-cased
      when it starts the string or follows a non-letter and lower-cased
      otherwise; every other character is kept. */
  function TitleChar(s: string, i: nat): char
    requires i < |s|
  {
    if !IsLetter(s[i]) then s[i]
    else if i > 0 && IsLetter(s[i - 1]) then Lower(s[i])
    else Upper(s[i])
  }

  /** The left-to-right scan of `str.title()`, where `afterLetter` says
      whether the character before `s` was a letter. */
  function TitleFrom(s: string, afterLetter: bool): (r: string)
    ensures |r| == |s|
  {
    if s == [] then []
    else
      var c := s[0];
      [if !IsLetter(c) then c else if afterLetter then Lower(c) else Upper(c)]
        + TitleFrom(s[1..], IsLetter(c))
  }

  /** The scan agrees with the position-wise description of `str.title()`. */
  lemma {:induction false} TitleFromSpec(s: string, afterLetter: bool)
    ensures forall i :: 1 <= i < |s| ==> TitleFrom(s, afterLetter)[i] == TitleChar(s, i)
    ensures |s| > 0 && !afterLetter ==> TitleFrom(s, afterLetter)[0] == TitleChar(s, 0)
  {
    if s != [] {
      var c := s[0];
      var tail := s[1..];
      TitleFromSpec(tail, IsLetter(c));
      var r := TitleFrom(s, afterLetter);
      forall i | 1 <= i < |s|
        ensures r[i] == TitleChar(s, i)
      {
        assert r[i] == TitleFrom(tail, IsLetter(c))[i - 1];
        assert tail[i - 1] == s[i];
        if i > 1 {
          assert tail[i - 2] == s[i - 1];
        }
      }
    }
  }

  /** `s.title()` for ASCII text. */
  function Title(s: string): (r: string)
    ensures |r| == |s|
    ensures forall i :: 0 <= i < |s| ==> r[i] == TitleChar(s, i)
  {
    TitleFromSpec(s, false);
    TitleFrom(s, false)
  }

  /** The generic label (lines 130-133): underscores become spaces, the
      words are title-cased, and the acronyms GPS, JPEG, EXIF and ID are
      restored. Apart from underscores becoming spaces, the label is the key
      up to letter case. */
  function Generic(key: string): (r: string)
    ensures |r| == |key|
    ensures forall i :: 0 <= i < |key| ==> Fold(r[i]) == Fold(if key[i] == '_' then ' ' else key[i])
  {
    ReplaceOneChar(key, '_', " ");
    SubstituteAt(key, '_', ' ');
    var spaced := ReplaceAll(key, "_", " ");
    var titled := Title(spaced);
    forall i | 0 <= i < |titled| ensures Fold(titled[i]) == Fold(spaced[i]) {
      TitleCharFold(spaced, i);
    }
    var g := ReplaceAll(titled, "Gps", "GPS");
    ReplaceFold(titled, "Gps", "GPS");
    var j := ReplaceAll(g, "Jpeg", "JPEG");
    ReplaceFold(g, "Jpeg", "JPEG");
    var e := ReplaceAll(j, "Exif", "EXIF");
    ReplaceFold(j, "Exif", "EXIF");
    ReplaceFold(e, "Id", "ID");
    ReplaceAll(e, "Id", "ID")
  }

  /** The label of a field: the two decimal-coordinate fields get fixed
      labels, every other field its generic label. */
  function Alias(key: string): string {
    if key == LatDecimal then LatDecimalAlias
    else if key == LonDecimal then LonDecimalAlias
    else Generic(key)
  }

  /** `self.pretty_aliases`: a label for every heading, with the two
      decimal-coordinate entries overridden (and present even when they are
      not headings). */
  function AliasTable(headings: seq<string>): (m: map<string, string>)
    ensures m.Keys == (set k | k in headings) + {LatDecimal, LonDecimal}
    ensures forall k :: k in m ==> m[k] == Alias(k)
    ensures m[LatDecimal] == LatDecimalAlias && m[LonDecimal] == LonDecimalAlias
  {
    var generic := map k | k in headings :: Generic(k);
    generic[LatDecimal := LatDecimalAlias][LonDecimal := LonDecimalAlias]
  }

  /** A label differs from its field name only in letter case and in
      underscores becoming spaces, apart from the two fixed labels; so it
      has no underscore left. */
  lemma AliasShape(key: string)
    requires key != LatDecimal && key != LonDecimal
    ensures |Alias(key)| == |key|
    ensures forall i :: 0 <= i < |key| ==> Fold(Alias(key)[i]) == Fold(if key[i] == '_' then ' ' else key[i])
    ensures '_' !in Alias(key)
  {
    var r := Alias(key);
    forall i | 0 <= i < |r| ensures r[i] != '_' {
      assert Fold(r[i]) == Fold(if key[i] == '_' then ' ' else key[i]);
    }
  }
}

=== FILE: basics.dfy ===
/** Small shared vocabulary: optional values, success-or-error results,
    element-wise mapping and duplicate-free sequences. */
module Basics {

  /** A value that may be absent (Python's `None` as the result of `dict.get`). */
  datatype Option<+T> = None | Some(value: T)

  /** Either a computed value or the error that aborted the computation. */
  datatype Result<+T, +E> = Success(value: T) | Failure(error: E)

  /** `f` applied to every element of `s`, in order. */
  function Map<A, B>(s: seq<A>, f: A -> B): (r: seq<B>)
    ensures |r| == |s|
    ensures forall i :: 0 <= i < |s| ==> r[i] == f(s[i])
  {
    seq(|s|, i requires 0 <= i < |s| => f(s[i]))
  }

  /** No element occurs twice. */
  predicate Distinct<T(==)>(s: seq<T>) {
    forall i, j :: 0 <= i < j < |s| ==> s[i] != s[j]
  }

  /** Dropping the last element of a duplicate-free sequence leaves one
      without that element. */
  lemma DistinctLast<T>(s: seq<T>)
    requires Distinct(s) && |s| > 0
    ensures Distinct(s[..|s| - 1])
    ensures s[|s| - 1] !in s[..|s| - 1]
  {
    var init := s[..|s| - 1];
    forall i | 0 <= i < |init| ensures init[i] != s[|s| - 1] {
      assert init[i] == s[i];
    }
  }

  /** Appending a non-empty sequence is appending its front, then its last element. */
  lemma AppendSnoc<T>(a: seq<T>, f: seq<T>)
    requires |f| > 0
    ensures a + f == (a + f[..|f| - 1]) + [f[|f| - 1]]
  {
    assert f == f[..|f| - 1] + [f[|f| - 1]];
  }
}

=== FILE: batch.dfy ===
/** The batch fold of exif_extract.py lines 84-117, independent of what a
    record is: each file either aborts the run with an error, adds nothing,
    or adds one record, and the records are kept in file order. */
module Batch {
  import opened Basics
  import opened KeyOrder

  /** No file of the batch fails. */
  predicate AllSucceed<R, E>(effects: seq<Result<Option<R>, E>>) {
    forall i :: 0 <= i < |effects| ==> effects[i].Success?
  }

  /** The records of a batch in which no file fails, in file order. */
  function Table<R, E>(effects: seq<Result<Option<R>, E>>): seq<R>
    requires AllSucceed(effects)
  {
    if effects == [] then []
    else
      var n := |effects| - 1;
      Table(effects[..n]) + match effects[n].value
                            case None => []
                            case Some(rec) => [rec]
  }

  /** The table holds, in file order, exactly one record for each file that
      added one: `idx` lists the positions of those files. */
  ghost predicate Picks<R, E>(effects: seq<Result<Option<R>, E>>, table: seq<R>, idx: seq<nat>) {
    && |idx| == |table|
    && (forall k :: 0 <= k < |idx| ==> idx[k] < |effects| && effects[idx[k]] == Success(Some(table[k])))
    && (forall k :: 0 < k < |idx| ==> idx[k - 1] < idx[k])
    && (forall i :: 0 <= i < |effects| && effects[i].Success? && effects[i].value.Some? ==> i in idx)
  }

  /** At most one file is the first to fail: every earlier file succeeds
      and it does not. */
  lemma FirstFailure<R, E>(effects: seq<Result<Option<R>, E>>)
    ensures forall i, j ::
              (&& 0 <= i < |effects| && 0 <= j < |effects|
               && AllSucceed(effects[..i]) && effects[i].Failure?
               && AllSucceed(effects[..j]) && effects[j].Failure?) ==> i == j
  {
    forall i, j | 0 <= i < j < |effects| && AllSucceed(effects[..j])
      ensures effects[i].Success?
    {
      assert effects[..j][i] == effects[i];
    }
  }

  /** Files that add nothing contribute nothing; every other file
      contributes its own record, once, in file order. */
  lemma {:induction false} TableOrder<R, E>(effects: seq<Result<Option<R>, E>>) returns (idx: seq<nat>)
    requires AllSucceed(effects)
    ensures Picks(effects, Table(effects), idx)
    decreases |effects|
  {
    if effects == [] {
      idx := [];
    } else {
      var n := |effects| - 1;
      var init := effects[..n];
      assert effects == init + [effects[n]];
      var idx0 := TableOrder(init);
      TableSnoc(init, effects[n]);
      idx := PicksSnoc(init, Table(init), idx0, effects[n]);
    }
  }

  /** The positions picked so far extend by the next file's position when
      that file adds a record. */
  lemma PicksSnoc<R, E>(effects: seq<Result<Option<R>, E>>, table: seq<R>, idx: seq<nat>,
                        e: Result<Option<R>, E>) returns (idx': seq<nat>)
    requires Picks(effects, table, idx) && e.Success?
    ensures Picks(effects + [e], table + if e.value.Some? then [e.value.value] else [], idx')
  {
    var all := effects + [e];
    var n := |effects|;
    assert forall i :: 0 <= i < n ==> all[i] == effects[i];
    if e.value.Some? {
      idx' := idx + [n];
      var t := table + [e.value.value];
      forall k | 0 <= k < |idx'|
        ensures idx'[k] < |all| && all[idx'[k]] == Success(Some(t[k]))
      {
        if k < |idx| {
          assert idx'[k] == idx[k] && t[k] == table[k];
        }
      }
      forall k | 0 < k < |idx'| ensures idx'[k - 1] < idx'[k] {
        if k == |idx| {
          assert idx[k - 1] < n;
        }
      }
      forall i | 0 <= i < |all| && all[i].Success? && all[i].value.Some?
        ensures i in idx'
      {
        if i == n {
          assert idx'[|idx|] == n;
        }
      }
    } else {
      idx' := idx;
      assert table + [] == table;
    }
  }

  /** One more file adds its record, if any, at the end of the table. */
  lemma TableSnoc<R, E>(effects: seq<Result<Option<R>, E>>, e: Result<Option<R>, E>)
    requires AllSucceed(effects) && e.Success?
    ensures AllSucceed(effects + [e])
    ensures Table(effects + [e]) == Table(effects) + if e.value.Some? then [e.value.value] else []
  {
    assert (effects + [e])[..|effects|] == effects;
  }

  /** Processing two batches in turn gives the two tables one after the
      other. */
  lemma {:induction false} TableAppend<R, E>(a: seq<Result<Option<R>, E>>, b: seq<Result<Option<R>, E>>)
    requires AllSucceed(a) && AllSucceed(b)
    ensures AllSucceed(a + b)
    ensures Table(a + b) == Table(a) + Table(b)
    decreases |b|
  {
    assert forall i :: 0 <= i < |a + b| ==> (a + b)[i] == if i < |a| then a[i] else b[i - |a|];
    if b == [] {
      assert a + b == a;
    } else {
      var ab := a + b;
      var b0 := b[..|b| - 1];
      assert ab[..|ab| - 1] == a + b0;
      assert ab[|ab| - 1] == b[|b| - 1];
      TableAppend(a, b0);
    }
  }
  /** The headings after folding the heading update over `table`, starting
      from `initial` (exif_extract.py lines 85 and 123-124). */
  function Grow<R, K(==)>(initial: seq<K>, keysOf: R -> seq<K>, table: seq<R>): seq<K> {
    if table == [] then initial
    else Union(Grow(initial, keysOf, table[..|table| - 1]), keysOf(table[|table| - 1]))
  }

  /** The headings always start with the initial ones, never repeat, hold
      every key of every record, and hold nothing else. */
  lemma {:induction false} GrowSpec<R, K>(initial: seq<K>, keysOf: R -> seq<K>, table: seq<R>)
    requires Distinct(initial)
    ensures |Grow(initial, keysOf, table)| >= |initial|
    ensures Grow(initial, keysOf, table)[..|initial|] == initial
    ensures Distinct(Grow(initial, keysOf, table))
    ensures forall i, k :: 0 <= i < |table| && k in keysOf(table[i]) ==> k in Grow(initial, keysOf, table)
    ensures forall x :: x in Grow(initial, keysOf, table) ==>
              x in initial || exists i :: 0 <= i < |table| && x in keysOf(table[i])
    decreases |table|
  {
    var h := Grow(initial, keysOf, table);
    if table != [] {
      var n := |table| - 1;
      var init := table[..n];
      GrowSpec(initial, keysOf, init);
      var h0 := Grow(initial, keysOf, init);
      UnionSpec(h0, keysOf(table[n]));
      assert h == Union(h0, keysOf(table[n]));
      assert h[..|initial|] == h[..|h0|][..|initial|];
      forall i, k | 0 <= i < |table| && k in keysOf(table[i]) ensures k in h {
        if i < n {
          assert table[i] == init[i];
          assert k in h0;
        } else {
          assert table[i] == table[n];
        }
      }
      forall x | x in h
        ensures x in initial || exists i :: 0 <= i < |table| && x in keysOf(table[i])
      {
        if x in h0 {
          if x !in initial {
            var i :| 0 <= i < |init| && x in keysOf(init[i]);
            assert table[i] == init[i];
          }
        } else {
          assert x in keysOf(table[n]);
        }
      }
    }
  }

  /** Later records only ever append headings: the headings after a table
      are a prefix of the headings after any longer table. */
  lemma {:induction false} GrowPrefix<R, K>(initial: seq<K>, keysOf: R -> seq<K>, table: seq<R>, more: seq<R>)
    requires Distinct(initial)
    ensures |Grow(initial, keysOf, table)| <= |Grow(initial, keysOf, table + more)|
    ensures Grow(initial, keysOf, table + more)[..|Grow(initial, keysOf, table)|] == Grow(initial, keysOf, table)
    decreases |more|
  {
    if more == [] {
      assert table + more == table;
    } else {
      var all := table + more;
      var m0 := more[..|more| - 1];
      assert all[..|all| - 1] == table + m0;
      GrowPrefix(initial, keysOf, table, m0);
      var h0 := Grow(initial, keysOf, table + m0);
      GrowSpec(initial, keysOf, table + m0);
      UnionSpec(h0, keysOf(all[|all| - 1]));
      var h := Grow(initial, keysOf, table);
      assert Grow(initial, keysOf, all)[..|h|] == Grow(initial, keysOf, all)[..|h0|][..|h|];
    }
  }

  /** One more successful file extends the table by its record, if any, and
      the headings by that record's keys. */
  lemma Advance<R, E, K>(effects: seq<Result<Option<R>, E>>, i: nat, initial: seq<K>, keysOf: R -> seq<K>)
    requires i < |effects| && AllSucceed(effects[..i]) && effects[i].Success?
    ensures AllSucceed(effects[..i + 1])
    ensures Table(effects[..i + 1]) ==
              Table(effects[..i]) + if effects[i].value.Some? then [effects[i].value.value] else []
    ensures effects[i].value.Some? ==>
              Grow(initial, keysOf, Table(effects[..i + 1])) ==
                Union(Grow(initial, keysOf, Table(effects[..i])), keysOf(effects[i].value.value))
  {
    assert effects[..i + 1] == effects[..i] + [effects[i]];
    TableSnoc(effects[..i], effects[i]);
    if effects[i].value.Some? {
      var t := Table(effects[..i + 1]);
      assert t[..|t| - 1] == Table(effects[..i]);
    }
  }

  /** The loop of exif_extract.py lines 86-124: takes the inputs in order;
      the first input whose outcome is an error aborts the run with that
      error and no table, inputs that add nothing are skipped, and every
      other input appends its record to the table and its new keys to the
      headings. */
  method Run<I, R, E, K(==)>(inputs: seq<I>, outcome: I -> Result<Option<R>, E>,
                             keysOf: R -> seq<K>, initial: seq<K>)
    returns (r: Result<(seq<R>, seq<K>), E>)
    ensures r.Success? <==> AllSucceed(Map(inputs, outcome))
    ensures r.Failure? ==>
              exists i :: 0 <= i < |inputs| && outcome(inputs[i]) == Failure(r.error) &&
                AllSucceed(Map(inputs, outcome)[..i])
    ensures r.Success? ==>
              r.value.0 == Table(Map(inputs, outcome)) &&
              r.value.1 == Grow(initial, keysOf, r.value.0)
  {
    ghost var effects := Map(inputs, outcome);
    var table: seq<R> := [];
    var headings := initial;
    var i := 0;
    while i < |inputs|
      invariant 0 <= i <= |inputs|
      invariant AllSucceed(effects[..i])
      invariant table == Table(effects[..i])
      invariant headings == Grow(initial, keysOf, table)
    {
      var effect := outcome(inputs[i]);
      if effect.Failure? {
        assert effects[i] == effect;
        return Failure(effect.error);
      }
      Advance(effects, i, initial, keysOf);
      if effect.value.Some? {
        table := table + [effect.value.value];
        headings := Union(headings, keysOf(effect.value.value));
      }
      i := i + 1;
    }
    assert effects[..i] == effects;
    return Success((table, headings));
  }
}

=== FILE: consolidation.dfy ===
/** The extraction run of `ExifExtract.__init__` (exif_extract.py lines
    64-135): one decoder outcome per input file is folded into a table of
    records and a list of field headings, and the alias table is built from
    the final headings. */
module Consolidation {
  import opened Basics
  import opened KeyOrder
  import opened Values
  import opened Records
  import opened FieldNames
  import opened Coordinates
  import opened Aliases
  import opened Batch

  /** What opening and decoding one file produced. `Fields` lists the
      decoder's field names (in `dir()` order) with the values it returned
      for them. */
  datatype Decoded =
    | Unreadable
    | DecodeFailure
    | NoExif
    | Fields(fields: seq<(string, Value)>)

  /** One input file. */
  datatype Input = Input(path: string, decoded: Decoded)

  /** The ways a run is aborted: the file could not be opened, the decoder
      rejected it (`ExtractError`), a GPS reference field is missing
      (Python's `KeyError`), or a GPS field is not a degree/minute/second
      triple (Python's `TypeError` or `IndexError`; a longer numeric
      sequence, which Python converts from its first three items, is out
      of scope). */
  datatype Error =
    | OpenFailed(path: string)
    | ExtractError
    | MissingKey(key: string)
    | NotCoordinates(key: string)

  /** The state a successful run leaves in the object: `exif_table`,
      `field_headings` and `pretty_aliases`. */
  datatype Extraction = Extraction(table: seq<Record>, headings: seq<string>, aliases: map<string, string>)

  /** The raw GPS field `raw` can be converted: absent, or present together
      with its reference field and holding a degree/minute/second triple. */
  predicate Convertible(rec: Record, raw: string, refKey: string) {
    Get(rec, raw).Some? ==> Get(rec, refKey).Some? && Get(rec, raw).value.Dms?
  }

  /** Lines 108-115: when `raw` is a field, stores its signed decimal value
      under `out`, reading the reference field directly. */
  function AddDecimal(rec: Record, raw: string, refKey: string, out: string): Result<Record, Error> {
    match Get(rec, raw)
    case None => Success(rec)
    case Some(coords) =>
      match Get(rec, refKey)
      case None => Failure(MissingKey(refKey))
      case Some(ref) =>
        if coords.Dms? then
          Success(Put(rec, out, Number(DecimalDegrees(coords.deg, coords.min, coords.sec, ref))))
        else Failure(NotCoordinates(raw))
  }

  /** Adding a decimal field succeeds exactly when the raw field is
      convertible; a present raw field without its reference is the missing
      key error, one that is not a triple the not-coordinates error. On
      success without the raw field nothing changes; with it, `out` holds
      the converted value and is inserted in key order; no other field
      changes. */
  lemma AddDecimalSpec(rec: Record, raw: string, refKey: string, out: string)
    ensures AddDecimal(rec, raw, refKey, out).Success? <==> Convertible(rec, raw, refKey)
    ensures AddDecimal(rec, raw, refKey, out).Failure? ==>
              AddDecimal(rec, raw, refKey, out).error ==
                if Get(rec, refKey).None? then MissingKey(refKey) else NotCoordinates(raw)
    ensures AddDecimal(rec, raw, refKey, out).Success? && Get(rec, raw).None? ==>
              AddDecimal(rec, raw, refKey, out).value == rec
    ensures AddDecimal(rec, raw, refKey, out).Success? && Get(rec, raw).Some? ==>
              var t := Get(rec, raw).value;
              && Get(AddDecimal(rec, raw, refKey, out).value, out)
                   == Some(Number(DecimalDegrees(t.deg, t.min, t.sec, Get(rec, refKey).value)))
              && Keys(AddDecimal(rec, raw, refKey, out).value) == Insert(Keys(rec), [out])
    ensures AddDecimal(rec, raw, refKey, out).Success? ==>
              forall k :: k != out ==> Get(AddDecimal(rec, raw, refKey, out).value, k) == Get(rec, k)
  {
  }

  /** Lines 103-105: the record seeded with the file name, then every
      decoder field copied in. */
  function Copied(path: string, fields: seq<(string, Value)>): (rec: Record)
    ensures Valid(rec)
    ensures Keys(rec) == Insert([Filename], Keys(fields))
    ensures forall k :: k in Keys(fields) ==> Get(rec, k) == Some(LastValue(fields, k))
    ensures Filename !in Keys(fields) ==> Get(rec, Filename) == Some(Text(path))
  {
    var seed: Record := [(Filename, Text(path))];
    assert Keys(seed) == [Filename];
    PutAllValid(seed, fields);
    PutAll(seed, fields)
  }

  /** Lines 107-115: both decimal fields added, latitude first, or the
      error the first failing one raises. */
  function WithDecimals(rec: Record): Result<Record, Error> {
    match AddDecimal(rec, Latitude, LatitudeRef, LatDecimal)
    case Failure(e) => Failure(e)
    case Success(withLat) => AddDecimal(withLat, Longitude, LongitudeRef, LonDecimal)
  }

  /** Adding the decimal fields keeps the record free of duplicate keys and
      keeps its existing keys in place. */
  lemma WithDecimalsValid(rec: Record)
    requires Valid(rec) && |rec| > 0
    requires WithDecimals(rec).Success?
    ensures Valid(WithDecimals(rec).value)
    ensures |WithDecimals(rec).value| >= |rec|
    ensures Keys(WithDecimals(rec).value)[..|rec|] == Keys(rec)
  {
    var withLat := AddDecimal(rec, Latitude, LatitudeRef, LatDecimal).value;
    AddDecimalValid(rec, Latitude, LatitudeRef, LatDecimal);
    AddDecimalValid(withLat, Longitude, LongitudeRef, LonDecimal);
    var both := WithDecimals(rec).value;
    assert Keys(both)[..|rec|] == Keys(both)[..|withLat|][..|rec|];
  }

  /** Lines 102-115: the record of one file with EXIF data, or the error
      that the GPS derivation raises. */
  function BuildRecord(path: string, fields: seq<(string, Value)>): Result<Record, Error> {
    WithDecimals(Copied(path, fields))
  }

  /** A built record has no duplicate keys and starts with `filename`. */
  lemma BuildRecordValid(path: string, fields: seq<(string, Value)>)
    requires GpsReadable(fields)
    ensures BuildRecord(path, fields).Success?
    ensures Valid(BuildRecord(path, fields).value)
    ensures |BuildRecord(path, fields).value| > 0 && Keys(BuildRecord(path, fields).value)[0] == Filename
  {
    BuildRecordErrors(path, fields);
    var base := Copied(path, fields);
    InsertSpec([Filename], Keys(fields));
    WithDecimalsValid(base);
    assert Keys(base)[0] == Filename;
  }

  /** Both decimal fields are added exactly when both raw GPS fields can be
      converted; otherwise the latitude's error is raised first. */
  lemma WithDecimalsErrors(rec: Record)
    ensures WithDecimals(rec).Success? <==>
              Convertible(rec, Latitude, LatitudeRef) && Convertible(rec, Longitude, LongitudeRef)
    ensures !Convertible(rec, Latitude, LatitudeRef) ==>
              WithDecimals(rec) == AddDecimal(rec, Latitude, LatitudeRef, LatDecimal)
    ensures Convertible(rec, Latitude, LatitudeRef) && !Convertible(rec, Longitude, LongitudeRef) ==>
              WithDecimals(rec) == Failure(
                if Get(rec, LongitudeRef).None? then MissingKey(LongitudeRef) else NotCoordinates(Longitude))
  {
    var lat := AddDecimal(rec, Latitude, LatitudeRef, LatDecimal);
    AddDecimalSpec(rec, Latitude, LatitudeRef, LatDecimal);
    if lat.Success? {
      AddDecimalSpec(lat.value, Longitude, LongitudeRef, LonDecimal);
      assert Get(lat.value, Longitude) == Get(rec, Longitude);
      assert Get(lat.value, LongitudeRef) == Get(rec, LongitudeRef);
    }
  }

  /** A raw GPS field reported by the decoder comes with its reference
      field and is a degree/minute/second triple. */
  predicate Readable(fields: seq<(string, Value)>, raw: string, refKey: string) {
    raw in Keys(fields) ==> refKey in Keys(fields) && LastValue(fields, raw).Dms?
  }

  /** Both raw GPS fields of a decoder's report can be converted. */
  predicate GpsReadable(fields: seq<(string, Value)>) {
    Readable(fields, Latitude, LatitudeRef) && Readable(fields, Longitude, LongitudeRef)
  }

  /** A record is built exactly when the decoder's GPS fields are readable;
      otherwise the latitude's error is raised first, and the longitude's
      when the latitude is readable. */
  lemma BuildRecordErrors(path: string, fields: seq<(string, Value)>)
    ensures BuildRecord(path, fields).Success? <==> GpsReadable(fields)
    ensures !Readable(fields, Latitude, LatitudeRef) ==>
              BuildRecord(path, fields) == Failure(
                if LatitudeRef !in Keys(fields) then MissingKey(LatitudeRef)
                else NotCoordinates(Latitude))
    ensures Readable(fields, Latitude, LatitudeRef) && !Readable(fields, Longitude, LongitudeRef) ==>
              BuildRecord(path, fields) == Failure(
                if LongitudeRef !in Keys(fields) then MissingKey(LongitudeRef)
                else NotCoordinates(Longitude))
  {
    var base := Copied(path, fields);
    CopiedReadable(path, fields, Latitude, LatitudeRef);
    CopiedReadable(path, fields, Longitude, LongitudeRef);
    WithDecimalsErrors(base);
    AddDecimalSpec(base, Latitude, LatitudeRef, LatDecimal);
  }

  /** A raw field of the copied record can be converted exactly when the
      decoder's report of it is readable. */
  lemma CopiedReadable(path: string, fields: seq<(string, Value)>, raw: string, refKey: string)
    requires raw != Filename && refKey != Filename
    ensures Convertible(Copied(path, fields), raw, refKey) <==> Readable(fields, raw, refKey)
    ensures Get(Copied(path, fields), refKey).None? <==> refKey !in Keys(fields)
  {
    CopiedField(path, fields, raw);
    CopiedField(path, fields, refKey);
  }

  /** Adding the decimal fields changes no other field. */
  lemma WithDecimalsKeeps(rec: Record, k: string)
    requires WithDecimals(rec).Success?
    requires k != LatDecimal && k != LonDecimal
    ensures Get(WithDecimals(rec).value, k) == Get(rec, k)
  {
    AddDecimalSpec(rec, Latitude, LatitudeRef, LatDecimal);
    var withLat := AddDecimal(rec, Latitude, LatitudeRef, LatDecimal).value;
    AddDecimalSpec(withLat, Longitude, LongitudeRef, LonDecimal);
    assert Get(withLat, k) == Get(rec, k);
  }

  /** Without a decimal latitude of its own, the record gains one exactly
      when it has a raw latitude, converted with its reference. */
  lemma WithDecimalsLatitude(rec: Record)
    requires WithDecimals(rec).Success?
    requires Get(rec, LatDecimal).None?
    ensures Get(WithDecimals(rec).value, LatDecimal).Some? <==> Get(rec, Latitude).Some?
    ensures Get(rec, Latitude).Some? ==>
              Get(rec, LatitudeRef).Some? && Get(rec, Latitude).value.Dms? &&
              var t := Get(rec, Latitude).value;
              Get(WithDecimals(rec).value, LatDecimal)
                == Some(Number(DecimalDegrees(t.deg, t.min, t.sec, Get(rec, LatitudeRef).value)))
  {
    var lat := AddDecimal(rec, Latitude, LatitudeRef, LatDecimal);
    assert lat.Success?;
    AddDecimalSpec(rec, Latitude, LatitudeRef, LatDecimal);
    var withLat := lat.value;
    var both := AddDecimal(withLat, Longitude, LongitudeRef, LonDecimal);
    assert WithDecimals(rec) == both;
    AddDecimalSpec(withLat, Longitude, LongitudeRef, LonDecimal);
    assert LatDecimal != LonDecimal;
    assert Get(both.value, LatDecimal) == Get(withLat, LatDecimal);
  }

  /** Without a decimal longitude of its own, the record gains one exactly
      when it has a raw longitude, converted with its reference. */
  lemma WithDecimalsLongitude(rec: Record)
    requires WithDecimals(rec).Success?
    requires Get(rec, LonDecimal).None?
    ensures Get(WithDecimals(rec).value, LonDecimal).Some? <==> Get(rec, Longitude).Some?
    ensures Get(rec, Longitude).Some? ==>
              Get(rec, LongitudeRef).Some? && Get(rec, Longitude).value.Dms? &&
              var t := Get(rec, Longitude).value;
              Get(WithDecimals(rec).value, LonDecimal)
                == Some(Number(DecimalDegrees(t.deg, t.min, t.sec, Get(rec, LongitudeRef).value)))
  {
    var lat := AddDecimal(rec, Latitude, LatitudeRef, LatDecimal);
    assert lat.Success?;
    AddDecimalSpec(rec, Latitude, LatitudeRef, LatDecimal);
    var withLat := lat.value;
    var both := AddDecimal(withLat, Longitude, LongitudeRef, LonDecimal);
    assert WithDecimals(rec) == both;
    AddDecimalSpec(withLat, Longitude, LongitudeRef, LonDecimal);
    assert LatDecimal != LonDecimal;
    assert Get(withLat, LonDecimal) == Get(rec, LonDecimal);
    assert Get(withLat, Longitude) == Get(rec, Longitude);
    assert Get(withLat, LongitudeRef) == Get(rec, LongitudeRef);
  }

  /** The built record holds the file name and every decoder field as
      copied; only the two decimal fields can differ. */
  lemma BuildRecordKeeps(path: string, fields: seq<(string, Value)>, k: string)
    requires GpsReadable(fields)
    requires k != LatDecimal && k != LonDecimal
    ensures BuildRecord(path, fields).Success?
    ensures Get(BuildRecord(path, fields).value, k) == Get(Copied(path, fields), k)
  {
    BuildRecordErrors(path, fields);
    InsertSpec([Filename], Keys(fields));
    WithDecimalsKeeps(Copied(path, fields), k);
  }

  /** A field other than the file name is in the copied record exactly when
      the decoder reported it, with its last reported value. */
  lemma CopiedField(path: string, fields: seq<(string, Value)>, k: string)
    requires k != Filename
    ensures Get(Copied(path, fields), k).Some? <==> k in Keys(fields)
    ensures k in Keys(fields) ==> Get(Copied(path, fields), k) == Some(LastValue(fields, k))
  {
    InsertSpec([Filename], Keys(fields));
  }

  /** `gps_lat_decimal` is a field of the built record exactly when
      `gps_latitude` is a decoder field, and then holds the converted
      latitude. */
  lemma BuildRecordLatitude(path: string, fields: seq<(string, Value)>)
    requires GpsReadable(fields)
    requires LatDecimal !in Keys(fields)
    ensures BuildRecord(path, fields).Success?
    ensures Get(BuildRecord(path, fields).value, LatDecimal).Some? <==> Latitude in Keys(fields)
    ensures Latitude in Keys(fields) ==>
              LatitudeRef in Keys(fields) && LastValue(fields, Latitude).Dms? &&
              var t := LastValue(fields, Latitude);
              Get(BuildRecord(path, fields).value, LatDecimal)
                == Some(Number(DecimalDegrees(t.deg, t.min, t.sec, LastValue(fields, LatitudeRef))))
  {
    BuildRecordErrors(path, fields);
    var base := Copied(path, fields);
    assert BuildRecord(path, fields) == WithDecimals(base);
    CopiedField(path, fields, LatDecimal);
    CopiedField(path, fields, Latitude);
    CopiedField(path, fields, LatitudeRef);
    WithDecimalsLatitude(base);
  }

  /** `gps_lon_decimal` is a field of the built record exactly when
      `gps_longitude` is a decoder field, and then holds the converted
      longitude. */
  lemma BuildRecordLongitude(path: string, fields: seq<(string, Value)>)
    requires GpsReadable(fields)
    requires LonDecimal !in Keys(fields)
    ensures BuildRecord(path, fields).Success?
    ensures Get(BuildRecord(path, fields).value, LonDecimal).Some? <==> Longitude in Keys(fields)
    ensures Longitude in Keys(fields) ==>
              LongitudeRef in Keys(fields) && LastValue(fields, Longitude).Dms? &&
              var t := LastValue(fields, Longitude);
              Get(BuildRecord(path, fields).value, LonDecimal)
                == Some(Number(DecimalDegrees(t.deg, t.min, t.sec, LastValue(fields, LongitudeRef))))
  {
    BuildRecordErrors(path, fields);
    var base := Copied(path, fields);
    assert BuildRecord(path, fields) == WithDecimals(base);
    CopiedField(path, fields, LonDecimal);
    CopiedField(path, fields, Longitude);
    CopiedField(path, fields, LongitudeRef);
    WithDecimalsLongitude(base);
  }

  /** Adding a decimal field keeps the record free of duplicate keys and
      keeps its existing keys in place. */
  lemma AddDecimalValid(rec: Record, raw: string, refKey: string, out: string)
    requires Valid(rec)
    requires AddDecimal(rec, raw, refKey, out).Success?
    ensures Valid(AddDecimal(rec, raw, refKey, out).value)
    ensures |AddDecimal(rec, raw, refKey, out).value| >= |rec|
    ensures Keys(AddDecimal(rec, raw, refKey, out).value)[..|rec|] == Keys(rec)
  {
    if Get(rec, raw).Some? {
      var t := Get(rec, raw).value;
      var v := Number(DecimalDegrees(t.deg, t.min, t.sec, Get(rec, refKey).value));
      PutValid(rec, out, v);
      var r := Put(rec, out, v);
      assert |Keys(r)| >= |Keys(rec)|;
    }
  }

  /** What one file does to the run: abort it with an error, add nothing
      (no EXIF data), or add one record. */
  type FileEffect = Result<Option<Record>, Error>

  /** Lines 86-117 for a single file: a file that cannot be opened fails
      with `OpenFailed`, a decoder failure with `ExtractError`, a file
      without EXIF data adds nothing, and a file with EXIF data adds its
      built record exactly when its GPS fields are readable, failing with
      the GPS error otherwise. */
  function FileOutcome(inp: Input): (e: FileEffect)
    ensures inp.decoded.Unreadable? ==> e == Failure(OpenFailed(inp.path))
    ensures inp.decoded.DecodeFailure? ==> e == Failure(ExtractError)
    ensures inp.decoded.NoExif? ==> e == Success(None)
    ensures inp.decoded.Fields? ==> (e.Success? <==> GpsReadable(inp.decoded.fields))
    ensures inp.decoded.Fields? && e.Success? ==>
              BuildRecord(inp.path, inp.decoded.fields).Success? &&
              e.value == Some(BuildRecord(inp.path, inp.decoded.fields).value)
    ensures inp.decoded.Fields? && e.Failure? ==>
              BuildRecord(inp.path, inp.decoded.fields) == Failure(e.error)
    ensures e.Success? ==> (e.value.Some? <==> inp.decoded.Fields?)
  {
    match inp.decoded
    case Unreadable => Failure(OpenFailed(inp.path))
    case DecodeFailure => Failure(ExtractError)
    case NoExif => Success(None)
    case Fields(f) =>
      BuildRecordErrors(inp.path, f);
      match BuildRecord(inp.path, f)
      case Success(rec) => Success(Some(rec))
      case Failure(e) => Failure(e)
  }

  /** The outcome of every file of a batch, file by file. */
  function Effects(inputs: seq<Input>): seq<FileEffect> {
    Map(inputs, FileOutcome)
  }

  /** The headings after folding the heading update of lines 123-124 over
      `table`, starting from the three fixed headings of line 85. */
  function Headings(table: seq<Record>): seq<string> {
    Grow(InitialHeadings, Keys, table)
  }

  /** The headings always start with `filename, gps_lat_decimal,
      gps_lon_decimal`, never repeat, hold every field name of every record,
      and hold nothing else. */
  lemma HeadingsSpec(table: seq<Record>)
    ensures |Headings(table)| >= 3 && Headings(table)[..3] == InitialHeadings
    ensures Distinct(Headings(table))
    ensures forall i, k :: 0 <= i < |table| && k in Keys(table[i]) ==> k in Headings(table)
    ensures forall x :: x in Headings(table) ==>
              x in InitialHeadings || exists i :: 0 <= i < |table| && x in Keys(table[i])
  {
    GrowSpec(InitialHeadings, Keys, table);
  }

  /** Later files only ever append headings: the headings after a table are
      a prefix of the headings after any longer table. */
  lemma HeadingsGrow(table: seq<Record>, more: seq<Record>)
    ensures |Headings(table)| <= |Headings(table + more)|
    ensures Headings(table + more)[..|Headings(table)|] == Headings(table)
  {
    GrowPrefix(InitialHeadings, Keys, table, more);
  }

  /** What the object guarantees its readers: the headings start with the
      three fixed ones and never repeat, every field of every record is a
      heading, and every heading has a label. */
  predicate Coherent(x: Extraction) {
    && |x.headings| >= 3
    && x.headings[..3] == InitialHeadings
    && Distinct(x.headings)
    && (forall i, k :: 0 <= i < |x.table| && k in Keys(x.table[i]) ==> k in x.headings)
    && AliasesCover(x)
  }

  /** Every heading has a label, as lines 149 and 184 need. */
  predicate AliasesCover(x: Extraction) {
    forall k :: k in x.headings ==> k in x.aliases
  }

  /** `ExifExtract(infilenames)` (lines 64-135): the files are processed in
      order; the first failing file aborts the run with its error and no
      table, files without EXIF data are skipped, every other file appends
      its record to the table and its new field names to the headings, and
      the alias table is built from the final headings. */
  method Extract(inputs: seq<Input>) returns (r: Result<Extraction, Error>)
    ensures r.Success? <==> AllSucceed(Effects(inputs))
    ensures r.Failure? ==>
              exists i :: 0 <= i < |inputs| && FileOutcome(inputs[i]) == Failure(r.error) &&
                AllSucceed(Effects(inputs)[..i])
    ensures forall i :: 0 <= i < |inputs| && AllSucceed(Effects(inputs)[..i]) && FileOutcome(inputs[i]).Failure? ==>
              r == Failure(FileOutcome(inputs[i]).error)
    ensures forall i :: 0 <= i < |inputs| && AllSucceed(Effects(inputs)[..i]) && inputs[i].decoded.DecodeFailure? ==>
              r == Failure(ExtractError)
    ensures r.Success? ==> r.value.table == Table(Effects(inputs))
    ensures r.Success? ==> r.value.headings == Headings(r.value.table)
    ensures r.Success? ==> r.value.aliases == AliasTable(r.value.headings)
    ensures r.Success? ==> Coherent(r.value)
  {
    var processed := Run(inputs, FileOutcome, Keys, InitialHeadings);
    match processed {
      case Failure(e) =>
        FirstFailure(Effects(inputs));
        return Failure(e);
      case Success((table, headings)) =>
        HeadingsSpec(table);
        return Success(Extraction(table, headings, AliasTable(headings)));
    }
  }

  /** The table of a run in which no file fails: record `k` is the record
      built from the `k`-th input with EXIF data, in input order, and inputs
      without EXIF data contribute nothing. */
  lemma TableRecords(inputs: seq<Input>) returns (idx: seq<nat>)
    requires AllSucceed(Effects(inputs))
    ensures |idx| == |Table(Effects(inputs))|
    ensures forall k :: 0 <= k < |idx| ==>
              && idx[k] < |inputs|
              && inputs[idx[k]].decoded.Fields?
              && BuildRecord(inputs[idx[k]].path, inputs[idx[k]].decoded.fields).Success?
              && Table(Effects(inputs))[k] == BuildRecord(inputs[idx[k]].path, inputs[idx[k]].decoded.fields).value
    ensures forall k :: 0 < k < |idx| ==> idx[k - 1] < idx[k]
    ensures forall i :: 0 <= i < |inputs| && inputs[i].decoded.Fields? ==> i in idx
  {
    var effects := Effects(inputs);
    idx := TableOrder(effects);
    forall k | 0 <= k < |idx|
      ensures && inputs[idx[k]].decoded.Fields?
              && BuildRecord(inputs[idx[k]].path, inputs[idx[k]].decoded.fields).Success?
              && Table(effects)[k] == BuildRecord(inputs[idx[k]].path, inputs[idx[k]].decoded.fields).value
    {
      assert effects[idx[k]] == FileOutcome(inputs[idx[k]]);
    }
    forall i | 0 <= i < |inputs| && inputs[i].decoded.Fields? ensures i in idx {
      assert effects[i] == FileOutcome(inputs[i]);
    }
  }
}

=== FILE: coordinates.dfy ===
/** GPS degree/minute/second triples to signed decimal degrees
    (exif_extract.py lines 76-82). Real arithmetic stands for Python's
    floating point. */
module Coordinates {
  import opened Values

  /** The references compared equal to "S" or "W". Any other value,
      including an unrecognised hemisphere letter, leaves the sign alone. */
  predicate Negates(ref: Value) {
    ref == Text("S") || ref == Text("W")
  }

  /** Degrees, minutes and seconds as unsigned decimal degrees. */
  function Magnitude(deg: real, min: real, sec: real): real {
    deg + min / 60.0 + sec / 3600.0
  }

  /** `gps_decimal_coords((deg, min, sec), ref)`. */
  function DecimalDegrees(deg: real, min: real, sec: real, ref: Value): (r: real)
    ensures r == Magnitude(deg, min, sec) || r == -Magnitude(deg, min, sec)
    ensures r * 3600.0 == (if Negates(ref) then -1.0 else 1.0) * (3600.0 * deg + 60.0 * min + sec)
  {
    var dd := deg + min / 60.0 + sec / 3600.0;
    if ref == Text("S") || ref == Text("W") then -dd else dd
  }

  /** South and west are the mirror images of north and east; every other
      reference gives the northern/eastern value. */
  lemma Hemispheres(deg: real, min: real, sec: real, ref: Value)
    ensures Negates(ref) ==> DecimalDegrees(deg, min, sec, ref) == -DecimalDegrees(deg, min, sec, Text("N"))
    ensures !Negates(ref) ==> DecimalDegrees(deg, min, sec, ref) == DecimalDegrees(deg, min, sec, Text("N"))
    ensures DecimalDegrees(deg, min, sec, Text("S")) == -DecimalDegrees(deg, min, sec, Text("N"))
    ensures DecimalDegrees(deg, min, sec, Text("W")) == -DecimalDegrees(deg, min, sec, Text("E"))
  {
  }

  /** For non-negative components the sign of the result is decided by the
      reference alone. */
  lemma SignRule(deg: real, min: real, sec: real, ref: Value)
    requires 0.0 <= deg && 0.0 <= min && 0.0 <= sec
    ensures !Negates(ref) ==> DecimalDegrees(deg, min, sec, ref) >= 0.0
    ensures Negates(ref) ==> DecimalDegrees(deg, min, sec, ref) <= 0.0
  {
  }

  /** More degrees, minutes or seconds move the coordinate further from
      the equator or meridian, in the direction the reference gives, and
      strictly so when any component grows. */
  lemma Monotone(deg1: real, deg2: real, min1: real, min2: real, sec1: real, sec2: real, ref: Value)
    requires deg1 <= deg2 && min1 <= min2 && sec1 <= sec2
    ensures !Negates(ref) ==> DecimalDegrees(deg1, min1, sec1, ref) <= DecimalDegrees(deg2, min2, sec2, ref)
    ensures Negates(ref) ==> DecimalDegrees(deg1, min1, sec1, ref) >= DecimalDegrees(deg2, min2, sec2, ref)
    ensures (deg1 < deg2 || min1 < min2 || sec1 < sec2) && !Negates(ref) ==>
              DecimalDegrees(deg1, min1, sec1, ref) < DecimalDegrees(deg2, min2, sec2, ref)
    ensures (deg1 < deg2 || min1 < min2 || sec1 < sec2) && Negates(ref) ==>
              DecimalDegrees(deg1, min1, sec1, ref) > DecimalDegrees(deg2, min2, sec2, ref)
  {
  }
}

=== FILE: csv.dfy ===
/** `ExifExtract.write_csv` (exif_extract.py lines 137-169): one header line
    of field names or their aliases, then one line per record holding, for
    every heading, the record's value as text with its double quotes doubled
    and, when it contains a comma, wrapped in double quotes.

    The partner of the writer is a reader: a splitter that honours double
    quotes and a cell reader that undoes the escaping. Reading back what was
    written gives every line, every field and every value text exactly,
    provided no value text holds a line break and no header name holds a
    comma, a double quote or a line break (lines 148-152 write the names
    unescaped). */
module Csv {
  import opened Basics
  import opened Values
  import opened Records
  import opened Strings
  import opened FieldNames
  import opened Aliases
  import opened Consolidation

  /** Line 162: `field.replace('"', '""')`: every double quote written
      twice, every other character kept. */
  function Double(s: string): (d: string)
    ensures d == SubstituteChar(s, '"', "\"\"")
  {
    ReplaceOneChar(s, '"', "\"\"");
    ReplaceAll(s, "\"", "\"\"")
  }

  /** Lines 162-166 for one value text: double quotes doubled, then the
      whole cell wrapped in double quotes when it contains a comma. */
  function EscapeCell(s: string): (e: string)
    ensures ',' in e <==> ',' in s
    ensures ',' in s ==> |e| >= 2 && e[0] == '"' && e[|e| - 1] == '"'
    ensures ',' in s ==> e == "\"" + Double(s) + "\""
    ensures ',' !in s ==> e == Double(s)
    ensures forall c :: c in e ==> c in s || c == '"'
  {
    DoubleKeeps(s, ',');
    var d := Double(s);
    if ',' in d then "\"" + d + "\"" else d
  }

  /** Doubling quotes neither adds nor removes any other character. */
  lemma DoubleKeeps(s: string, x: char)
    requires x != '"'
    ensures x in Double(s) <==> x in s
  {
    ReplaceOneChar(s, '"', "\"\"");
    SubstituteKeeps(s, '"', "\"\"", x);
  }

  /** Substitution keeps every character that is neither the substituted
      one nor in the replacement. */
  lemma {:induction false} SubstituteKeeps(s: string, c: char, rep: string, x: char)
    requires x != c && x !in rep
    ensures x in SubstituteChar(s, c, rep) <==> x in s
    decreases |s|
  {
    if s != [] {
      SubstituteKeeps(s[1..], c, rep, x);
      assert s == [s[0]] + s[1..];
    }
  }

  /** Undoes line 162: every `""` becomes `"`. */
  function Undouble(c: string): string {
    ReplaceAll(c, "\"\"", "\"")
  }

  /** Undoubling is the inverse of doubling. */
  lemma {:induction false} UndoubleDouble(s: string)
    ensures Undouble(Double(s)) == s
  {
    ReplaceOneChar(s, '"', "\"\"");
    UndoubleSubstitute(s);
  }

  /** Undoubling inverts the character-wise doubling of quotes. */
  lemma {:induction false} UndoubleSubstitute(s: string)
    ensures ReplaceAll(SubstituteChar(s, '"', "\"\""), "\"\"", "\"") == s
    decreases |s|
  {
    if s != [] {
      var t := SubstituteChar(s[1..], '"', "\"\"");
      UndoubleSubstitute(s[1..]);
      var d := SubstituteChar(s, '"', "\"\"");
      if s[0] == '"' {
        assert d == "\"\"" + t;
        assert d[..2] == "\"\"" && d[2..] == t;
      } else {
        assert d == [s[0]] + t;
        assert d[1..] == t;
        if |d| >= 2 {
          assert d[..2] != "\"\"" by { assert d[0] == s[0]; }
        }
        assert s == [s[0]] + s[1..];
      }
    }
  }

  /** Reads one cell as written by `EscapeCell`: a cell with a comma lost
      its enclosing quotes, and every cell has its quotes undoubled. */
  function ReadCell(c: string): string {
    if ',' in c && |c| >= 2 && c[0] == '"' && c[|c| - 1] == '"' then Undouble(c[1..|c| - 1])
    else Undouble(c)
  }

  /** Every value text is read back exactly from its cell. */
  lemma CellRoundTrip(s: string)
    ensures ReadCell(EscapeCell(s)) == s
  {
    UndoubleDouble(s);
    var d := Double(s);
    if ',' in d {
      var e := "\"" + d + "\"";
      assert e[1..|e| - 1] == d;
    }
  }

  /** Whether the splitter is inside double quotes after reading `c`. */
  function Toggle(c: char, inQuotes: bool): bool {
    if c == '"' then !inQuotes else inQuotes
  }

  /** Splits a line at the commas outside double quotes; `cur` is the field
      read so far. */
  function SplitFrom(s: string, inQuotes: bool, cur: string): (fields: seq<string>)
    ensures |fields| >= 1
    decreases |s|
  {
    if s == [] then [cur]
    else if s[0] == ',' && !inQuotes then [cur] + SplitFrom(s[1..], false, "")
    else SplitFrom(s[1..], Toggle(s[0], inQuotes), cur + [s[0]])
  }

  /** The fields of one line. */
  function SplitFields(line: string): seq<string> {
    SplitFrom(line, false, "")
  }

  /** The quote state after reading `e` from state `q`. */
  function EndState(e: string, q: bool): bool
    decreases |e|
  {
    if e == [] then q else EndState(e[1..], Toggle(e[0], q))
  }

  /** Reading `e` from state `q` meets no comma outside double quotes. */
  predicate NoBareComma(e: string, q: bool)
    decreases |e|
  {
    e == [] || ((e[0] != ',' || q) && NoBareComma(e[1..], Toggle(e[0], q)))
  }

  /** A cell the splitter reads whole: no separating comma inside, and
      outside double quotes again at its end. */
  predicate Sealed(e: string) {
    NoBareComma(e, false) && !EndState(e, false)
  }

  /** The splitter reads through a cell without a separating comma. */
  lemma {:induction false} ScanCell(e: string, rest: string, q: bool, cur: string)
    requires NoBareComma(e, q)
    ensures SplitFrom(e + rest, q, cur) == SplitFrom(rest, EndState(e, q), cur + e)
    decreases |e|
  {
    if e == [] {
      assert e + rest == rest;
      assert cur + e == cur;
    } else {
      assert (e + rest)[0] == e[0];
      assert (e + rest)[1..] == e[1..] + rest;
      assert cur + [e[0]] + e[1..] == cur + e;
      ScanCell(e[1..], rest, Toggle(e[0], q), cur + [e[0]]);
    }
  }

  /** Quote states compose over concatenation. */
  lemma {:induction false} StateAppend(a: string, b: string, q: bool)
    ensures EndState(a + b, q) == EndState(b, EndState(a, q))
    ensures NoBareComma(a + b, q) <==> NoBareComma(a, q) && NoBareComma(b, EndState(a, q))
    decreases |a|
  {
    if a == [] {
      assert a + b == b;
    } else {
      assert (a + b)[0] == a[0];
      assert (a + b)[1..] == a[1..] + b;
      StateAppend(a[1..], b, Toggle(a[0], q));
    }
  }

  /** A doubled text leaves the quote state as it was, and read inside
      double quotes it meets no separating comma. */
  lemma {:induction false} DoubledState(s: string, q: bool)
    ensures EndState(SubstituteChar(s, '"', "\"\""), q) == q
    ensures NoBareComma(SubstituteChar(s, '"', "\"\""), true)
    decreases |s|
  {
    if s != [] {
      DoubledState(s[1..], q);
      DoubledState(s[1..], true);
      var piece := if s[0] == '"' then "\"\"" else [s[0]];
      var t := SubstituteChar(s[1..], '"', "\"\"");
      StateAppend(piece, t, q);
      StateAppend(piece, t, true);
    }
  }

  /** A text without commas has no separating comma in any state. */
  lemma {:induction false} CommaFree(e: string, q: bool)
    requires ',' !in e
    ensures NoBareComma(e, q)
    decreases |e|
  {
    if e != [] {
      CommaFree(e[1..], Toggle(e[0], q));
    }
  }

  /** Every escaped cell is read whole by the splitter. */
  lemma EscapedSealed(s: string)
    ensures Sealed(EscapeCell(s))
  {
    ReplaceOneChar(s, '"', "\"\"");
    var d := Double(s);
    DoubledState(s, false);
    DoubledState(s, true);
    if ',' in d {
      StateAppend("\"", d, false);
      StateAppend("\"" + d, "\"", false);
    } else {
      CommaFree(d, false);
    }
  }

  /** Sealed cells joined with commas split back into the same cells. */
  lemma {:induction false} JoinSplit(cells: seq<string>)
    requires |cells| >= 1
    requires forall i :: 0 <= i < |cells| ==> Sealed(cells[i])
    ensures SplitFields(Join(cells, ",")) == cells
    decreases |cells|
  {
    if |cells| == 1 {
      ScanCell(cells[0], "", false, "");
      assert cells[0] + "" == cells[0];
      assert "" + cells[0] == cells[0];
    } else {
      var rest := Join(cells[1..], ",");
      JoinSplit(cells[1..]);
      assert cells[0] + "," + rest == cells[0] + ("," + rest);
      ScanCell(cells[0], "," + rest, false, "");
      assert "" + cells[0] == cells[0];
      assert ("," + rest)[1..] == rest;
      assert cells == [cells[0]] + cells[1..];
    }
  }

  /** A character that is in no part and not the separator is not in the
      joined text. */
  lemma {:induction false} JoinAvoids(parts: seq<string>, sep: string, x: char)
    requires x !in sep
    requires forall i :: 0 <= i < |parts| ==> x !in parts[i]
    ensures x !in Join(parts, sep)
    decreases |parts|
  {
    if |parts| > 1 {
      JoinAvoids(parts[1..], sep, x);
    }
  }

  /** Line 159: `str(row.get(key, ''))`, the text of a record's field, empty
      when the record lacks it. */
  function CellText(rec: Record, key: string, num: real -> string): string {
    match Get(rec, key)
    case None => ""
    case Some(v) => Str(v, num)
  }

  /** The escaped cells of one record, one per heading. */
  function RowCells(rec: Record, headings: seq<string>, num: real -> string): (cells: seq<string>)
    ensures |cells| == |headings|
    ensures forall i :: 0 <= i < |headings| ==> cells[i] == EscapeCell(CellText(rec, headings[i], num))
  {
    seq(|headings|, i requires 0 <= i < |headings| => EscapeCell(CellText(rec, headings[i], num)))
  }

  /** Lines 155-169 for one record: the body line, without its line
      break. */
  function Row(rec: Record, headings: seq<string>, num: real -> string): string {
    Join(RowCells(rec, headings, num), ",")
  }

  /** A body line splits into one field per heading, and each field reads
      back as the record's text for that heading (empty when missing). */
  lemma RowRoundTrip(rec: Record, headings: seq<string>, num: real -> string)
    requires |headings| >= 1
    ensures |SplitFields(Row(rec, headings, num))| == |headings|
    ensures forall i :: 0 <= i < |headings| ==>
              ReadCell(SplitFields(Row(rec, headings, num))[i]) == CellText(rec, headings[i], num)
  {
    var cells := RowCells(rec, headings, num);
    forall i | 0 <= i < |cells| ensures Sealed(cells[i]) {
      EscapedSealed(CellText(rec, headings[i], num));
    }
    JoinSplit(cells);
    forall i | 0 <= i < |headings|
      ensures ReadCell(cells[i]) == CellText(rec, headings[i], num)
    {
      CellRoundTrip(CellText(rec, headings[i], num));
    }
  }

  /** Line 159, `str(row.get(key, ''))`, as it reaches the body line: a
      field the record lacks is the empty field, a field holding `None` is
      `None`, and a text field is the text, escaped. */
  lemma RowFields(rec: Record, headings: seq<string>, num: real -> string)
    requires |headings| >= 1
    ensures |SplitFields(Row(rec, headings, num))| == |headings|
    ensures forall j :: 0 <= j < |headings| && Get(rec, headings[j]).None? ==>
              SplitFields(Row(rec, headings, num))[j] == ""
    ensures forall j :: 0 <= j < |headings| && Get(rec, headings[j]) == Some(Nothing) ==>
              SplitFields(Row(rec, headings, num))[j] == "None"
    ensures forall j :: 0 <= j < |headings| && Get(rec, headings[j]).Some? && Get(rec, headings[j]).value.Text? ==>
              SplitFields(Row(rec, headings, num))[j] == EscapeCell(Get(rec, headings[j]).value.s)
  {
    var fields := SplitFields(Row(rec, headings, num));
    RowSplits(rec, headings, num);
    PlainCells();
    forall j | 0 <= j < |headings|
      ensures fields[j] == EscapeCell(CellText(rec, headings[j], num))
    {
    }
  }

  /** A body line splits back into exactly its escaped cells. */
  lemma RowSplits(rec: Record, headings: seq<string>, num: real -> string)
    requires |headings| >= 1
    ensures SplitFields(Row(rec, headings, num)) == RowCells(rec, headings, num)
  {
    var cells := RowCells(rec, headings, num);
    forall i | 0 <= i < |cells| ensures Sealed(cells[i]) {
      EscapedSealed(CellText(rec, headings[i], num));
    }
    JoinSplit(cells);
  }

  /** The empty field and `None` are written as they are. */
  lemma PlainCells()
    ensures EscapeCell("") == ""
    ensures EscapeCell("None") == "None"
  {
    SubstituteAbsent("", '"', "\"\"");
    SubstituteAbsent("None", '"', "\"\"");
  }

  /** Substituting a character the text lacks changes nothing. */
  lemma {:induction false} SubstituteAbsent(s: string, c: char, rep: string)
    requires c !in s
    ensures SubstituteChar(s, c, rep) == s
    decreases |s|
  {
    if s != [] {
      assert c !in s[1..];
      SubstituteAbsent(s[1..], c, rep);
    }
  }

  /** Lines 148-152: the header names, the headings or their aliases. */
  function HeaderNames(x: Extraction, useAliases: bool): (names: seq<string>)
    requires useAliases ==> AliasesCover(x)
    ensures |names| == |x.headings|
    ensures forall i :: 0 <= i < |x.headings| ==>
              names[i] == if useAliases then x.aliases[x.headings[i]] else x.headings[i]
  {
    if useAliases then seq(|x.headings|, i requires 0 <= i < |x.headings| => x.aliases[x.headings[i]])
    else x.headings
  }

  /** The header of a run's result: with aliases, every heading's label,
      so the second and third names are the fixed labels of the decimal
      fields (lines 134-135); without, the headings, starting with
      `filename, gps_lat_decimal, gps_lon_decimal`. */
  lemma HeaderLabels(x: Extraction)
    requires Coherent(x) && x.aliases == AliasTable(x.headings)
    ensures forall i :: 0 <= i < |x.headings| ==> HeaderNames(x, true)[i] == Alias(x.headings[i])
    ensures HeaderNames(x, true)[1] == LatDecimalAlias
    ensures HeaderNames(x, true)[2] == LonDecimalAlias
    ensures HeaderNames(x, false)[..3] == InitialHeadings
  {
    assert x.headings[1] == LatDecimal && x.headings[2] == LonDecimal by {
      assert x.headings[..3][1] == x.headings[1] && x.headings[..3][2] == x.headings[2];
    }
  }

  /** `write_csv(outfile, use_aliases)`: the whole text written. */
  function CsvText(x: Extraction, useAliases: bool, num: real -> string): string
    requires useAliases ==> AliasesCover(x)
  {
    Unlines(CsvLines(x, useAliases, num))
  }

  /** The lines written: the header, then one body line per record in table
      order. */
  function CsvLines(x: Extraction, useAliases: bool, num: real -> string): (lines: seq<string>)
    requires useAliases ==> AliasesCover(x)
    ensures |lines| == 1 + |x.table|
    ensures lines[0] == Join(HeaderNames(x, useAliases), ",")
    ensures lines[1..] == BodyLines(x.table, x.headings, num)
  {
    [Join(HeaderNames(x, useAliases), ",")] + BodyLines(x.table, x.headings, num)
  }

  /** Lines 155-169: one body line per record. */
  function BodyLines(table: seq<Record>, headings: seq<string>, num: real -> string): (lines: seq<string>)
    ensures |lines| == |table|
    ensures forall i :: 0 <= i < |table| ==> lines[i] == Row(table[i], headings, num)
  {
    seq(|table|, i requires 0 <= i < |table| => Row(table[i], headings, num))
  }

  /** Header names are plain: no comma, double quote or line break. */
  predicate PlainNames(names: seq<string>) {
    forall i :: 0 <= i < |names| ==> ',' !in names[i] && '"' !in names[i] && '\n' !in names[i]
  }

  /** No value text of the table holds a line break. */
  predicate SingleLineValues(x: Extraction, num: real -> string) {
    forall i, j :: 0 <= i < |x.table| && 0 <= j < |x.headings| ==>
      '\n' !in CellText(x.table[i], x.headings[j], num)
  }

  /** A plain name is a sealed cell. */
  lemma PlainSealed(name: string)
    requires ',' !in name && '"' !in name
    ensures Sealed(name)
  {
    CommaFree(name, false);
    QuoteFreeState(name, false);
  }

  /** Text without double quotes leaves the quote state as it was. */
  lemma {:induction false} QuoteFreeState(e: string, q: bool)
    requires '"' !in e
    ensures EndState(e, q) == q
    decreases |e|
  {
    if e != [] {
      QuoteFreeState(e[1..], q);
    }
  }

  /** Under the same conditions no written line holds a line break, so
      the text splits back into exactly the written lines. */
  lemma CsvLinesBack(x: Extraction, useAliases: bool, num: real -> string)
    requires useAliases ==> AliasesCover(x)
    requires PlainNames(HeaderNames(x, useAliases))
    requires SingleLineValues(x, num)
    ensures ReadLines(CsvText(x, useAliases, num)) == CsvLines(x, useAliases, num)
  {
    var names := HeaderNames(x, useAliases);
    var lines := CsvLines(x, useAliases, num);
    var body := BodyLines(x.table, x.headings, num);
    assert forall i :: 1 <= i < |lines| ==> lines[i] == body[i - 1];
    JoinAvoids(names, ",", '\n');
    forall i | 1 <= i < |lines| ensures '\n' !in lines[i] {
      var cells := RowCells(x.table[i - 1], x.headings, num);
      forall j | 0 <= j < |cells| ensures '\n' !in cells[j] {
        assert '\n' !in CellText(x.table[i - 1], x.headings[j], num);
      }
      JoinAvoids(cells, ",", '\n');
    }
    LinesRoundTrip(lines);
  }

  /** Reading back the CSV text of a run: one line per record after the
      header; the header splits into the header names; and every body field
      reads back as the record's text for its heading, empty where the
      record lacks the field. */
  lemma {:induction false} CsvRoundTrip(x: Extraction, useAliases: bool, num: real -> string)
    requires |x.headings| >= 1
    requires useAliases ==> AliasesCover(x)
    requires PlainNames(HeaderNames(x, useAliases))
    requires SingleLineValues(x, num)
    ensures var lines := ReadLines(CsvText(x, useAliases, num));
            && |lines| == 1 + |x.table|
            && SplitFields(lines[0]) == HeaderNames(x, useAliases)
            && (forall i :: 1 <= i < |lines| ==> |SplitFields(lines[i])| == |x.headings|)
            && (forall i, j :: 1 <= i < |lines| && 0 <= j < |x.headings| ==>
                  ReadCell(SplitFields(lines[i])[j]) == CellText(x.table[i - 1], x.headings[j], num))
  {
    var names := HeaderNames(x, useAliases);
    var lines := CsvLines(x, useAliases, num);
    var body := BodyLines(x.table, x.headings, num);
    CsvLinesBack(x, useAliases, num);
    forall i | 0 <= i < |names| ensures Sealed(names[i]) {
      PlainSealed(names[i]);
    }
    JoinSplit(names);
    forall i | 1 <= i < |lines|
      ensures |SplitFields(lines[i])| == |x.headings|
      ensures forall j :: 0 <= j < |x.headings| ==>
                ReadCell(SplitFields(lines[i])[j]) == CellText(x.table[i - 1], x.headings[j], num)
    {
      assert lines[i] == body[i - 1];
      RowRoundTrip(x.table[i - 1], x.headings, num);
    }
  }

  /** How a reader following section 2 of RFC 4180 reads a single field: a
      field that starts and ends with a double quote is enclosed, and its
      inner quotes are doubled; any other field is taken as it stands. */
  function EnclosedRead(c: string): string {
    if |c| >= 2 && c[0] == '"' && c[|c| - 1] == '"' then Undouble(c[1..|c| - 1]) else c
  }

  /** A value that is a lone double quote has no comma, so it is written as
      `""` without enclosing quotes, which such a reader takes for the empty
      field. */
  lemma LoneQuoteMisread()
    ensures EscapeCell("\"") == "\"\""
    ensures EnclosedRead(EscapeCell("\"")) == ""
  {
    ReplaceOneChar("\"", '"', "\"\"");
    assert SubstituteChar("\"", '"', "\"\"") == "\"\"" + SubstituteChar("", '"', "\"\"");
    var inner := "\"\""[1..1];
    assert inner == "";
  }
}

=== FILE: field_names.dfy ===
/** The field names the engine treats specially (exif_extract.py lines 85,
    103, 108-115, 134-135, 183). */
module FieldNames {
  const Filename := "filename"
  const Latitude := "gps_latitude"
  const LatitudeRef := "gps_latitude_ref"
  const Longitude := "gps_longitude"
  const LongitudeRef := "gps_longitude_ref"
  const LatDecimal := "gps_lat_decimal"
  const LonDecimal := "gps_lon_decimal"

  /** The headings every run starts from. */
  const InitialHeadings := [Filename, LatDecimal, LonDecimal]
}

=== FILE: key_order.dfy ===
/** Insertion-ordered key lists: the order Python dictionaries keep their keys
    in, `dict.fromkeys`, and the field-heading union built on it
    (exif_extract.py lines 119-124). */
module KeyOrder {
  import opened Basics

  /** Position of the first occurrence of `x` in `s`. */
  function FirstIndex<T(==)>(s: seq<T>, x: T): (i: nat)
    requires x in s
    ensures i < |s| && s[i] == x
    ensures forall j :: 0 <= j < i ==> s[j] != x
  {
    if s[0] == x then 0 else 1 + FirstIndex(s[1..], x)
  }

  /** Inserts the elements of `s`, left to right, into the key list `acc`:
      a key already present keeps its place, a new key goes at the end. */
  function Insert<T(==)>(acc: seq<T>, s: seq<T>): seq<T>
    decreases |s|
  {
    if s == [] then acc
    else Insert(if s[0] in acc then acc else acc + [s[0]], s[1..])
  }

  /** `list(dict.fromkeys(s))`. */
  function FromKeys<T(==)>(s: seq<T>): seq<T> {
    Insert([], s)
  }

  /** The heading update of exif_extract.py lines 123-124:
      `list(dict.fromkeys(known + keys))`. */
  function Union<T(==)>(known: seq<T>, keys: seq<T>): seq<T> {
    FromKeys(known + keys)
  }

  /** Inserting a sequence in two pieces is inserting it at once. */
  lemma {:induction false} InsertAppend<T>(acc: seq<T>, a: seq<T>, b: seq<T>)
    ensures Insert(acc, a + b) == Insert(Insert(acc, a), b)
    decreases |a|
  {
    if a == [] {
      assert a + b == b;
    } else {
      assert (a + b)[0] == a[0];
      assert (a + b)[1..] == a[1..] + b;
      var acc' := if a[0] in acc then acc else acc + [a[0]];
      InsertAppend(acc', a[1..], b);
    }
  }

  /** Inserting keys that are all new and pairwise distinct appends them. */
  lemma {:induction false} InsertFresh<T>(acc: seq<T>, s: seq<T>)
    requires Distinct(acc + s)
    ensures Insert(acc, s) == acc + s
    decreases |s|
  {
    if s != [] {
      assert (acc + s)[|acc|] == s[0];
      assert s[0] !in acc by {
        forall i | 0 <= i < |acc| ensures acc[i] != s[0] {
          assert (acc + s)[i] == acc[i];
        }
      }
      assert acc + [s[0]] + s[1..] == acc + s;
      InsertFresh(acc + [s[0]], s[1..]);
    }
  }

  /** Inserting keys that are all known already changes nothing. */
  lemma {:induction false} InsertKnown<T>(acc: seq<T>, s: seq<T>)
    requires forall x :: x in s ==> x in acc
    ensures Insert(acc, s) == acc
    decreases |s|
  {
    if s != [] {
      assert s[0] in acc;
      InsertKnown(acc, s[1..]);
    }
  }

  /** The full characterisation of `Insert` on a duplicate-free key list:
      the old list is kept as a prefix, nothing occurs twice, exactly the old
      and the inserted keys occur, and the appended keys are the new ones in
      the order of their first occurrence in `s`. */
  lemma {:induction false} InsertSpec<T>(acc: seq<T>, s: seq<T>)
    requires Distinct(acc)
    ensures |Insert(acc, s)| >= |acc|
    ensures Insert(acc, s)[..|acc|] == acc
    ensures Distinct(Insert(acc, s))
    ensures forall x :: x in Insert(acc, s) <==> x in acc || x in s
    ensures forall i :: |acc| <= i < |Insert(acc, s)| ==>
              Insert(acc, s)[i] in s && Insert(acc, s)[i] !in acc
    ensures forall i, j :: |acc| <= i < j < |Insert(acc, s)| ==>
              FirstIndex(s, Insert(acc, s)[i]) < FirstIndex(s, Insert(acc, s)[j])
    decreases |s|
  {
    if s != [] {
      var x := s[0];
      var acc' := if x in acc then acc else acc + [x];
      assert Distinct(acc');
      InsertSpec(acc', s[1..]);
      var r := Insert(acc, s);
      assert r == Insert(acc', s[1..]);
      assert r[..|acc'|] == acc';
      assert r[..|acc|] == acc by {
        assert acc'[..|acc|] == acc;
        assert r[..|acc|] == r[..|acc'|][..|acc|];
      }
      forall y
        ensures y in r <==> y in acc || y in s
      {
        assert y in s <==> y == x || y in s[1..];
      }
      forall i | |acc| <= i < |r|
        ensures r[i] in s && r[i] !in acc
      {
        if i < |acc'| {
          assert r[i] == acc'[i] == x;
        } else {
          assert r[i] in s[1..];
          assert r[i] !in acc';
        }
      }
      forall i, j | |acc| <= i < j < |r|
        ensures FirstIndex(s, r[i]) < FirstIndex(s, r[j])
      {
        assert r[j] != x by {
          assert j >= |acc'|;
          assert r[j] !in acc';
        }
        assert FirstIndex(s, r[j]) == 1 + FirstIndex(s[1..], r[j]);
        if i < |acc'| {
          assert r[i] == x;
        } else {
          assert r[i] != x by { assert r[i] !in acc'; }
          assert FirstIndex(s, r[i]) == 1 + FirstIndex(s[1..], r[i]);
        }
      }
    }
  }

  /** `dict.fromkeys` of a duplicate-free list is that list. */
  lemma FromKeysDistinct<T>(s: seq<T>)
    requires Distinct(s)
    ensures FromKeys(s) == s
  {
    assert [] + s == s;
    InsertFresh([], s);
  }

  /** Union with a duplicate-free heading list is insertion into it. */
  lemma {:induction false} UnionIsInsert<T>(known: seq<T>, keys: seq<T>)
    requires Distinct(known)
    ensures Union(known, keys) == Insert(known, keys)
  {
    InsertAppend([], known, keys);
    FromKeysDistinct(known);
  }

  /** The heading update keeps the old headings unchanged as a prefix,
      never repeats a heading, holds exactly the old headings and the
      record's keys, and appends the record's new keys in the record's own
      order (exif_extract.py lines 119-124). */
  lemma {:induction false} UnionSpec<T>(known: seq<T>, keys: seq<T>)
    requires Distinct(known)
    ensures |Union(known, keys)| >= |known|
    ensures Union(known, keys)[..|known|] == known
    ensures Distinct(Union(known, keys))
    ensures forall x :: x in Union(known, keys) <==> x in known || x in keys
    ensures forall i :: |known| <= i < |Union(known, keys)| ==>
              Union(known, keys)[i] in keys && Union(known, keys)[i] !in known
    ensures forall i, j :: |known| <= i < j < |Union(known, keys)| ==>
              FirstIndex(keys, Union(known, keys)[i]) < FirstIndex(keys, Union(known, keys)[j])
  {
    UnionIsInsert(known, keys);
    InsertSpec(known, keys);
  }

  /** Applying the heading update twice with the same record is applying it
      once. */
  lemma {:induction false} UnionIdempotent<T>(known: seq<T>, keys: seq<T>)
    requires Distinct(known)
    ensures Union(Union(known, keys), keys) == Union(known, keys)
  {
    var u := Union(known, keys);
    UnionSpec(known, keys);
    UnionIsInsert(u, keys);
    InsertKnown(u, keys);
  }

  /** The heading update leaves the headings unchanged exactly when every key
      of the record is already a heading. */
  lemma {:induction false} UnionUnchanged<T>(known: seq<T>, keys: seq<T>)
    requires Distinct(known)
    ensures Union(known, keys) == known <==> forall x :: x in keys ==> x in known
  {
    UnionSpec(known, keys);
    if forall x :: x in keys ==> x in known {
      UnionIsInsert(known, keys);
      InsertKnown(known, keys);
    }
  }
}

=== FILE: listing.dfy ===
/** A loop that writes one line for every key that passes a test, in key
    order, and what such a loop writes. */
module Listing {
  import opened Basics
  import opened Strings

  /** The keys that pass `keep`, in their order. */
  function Select<K(!new)>(keys: seq<K>, keep: K -> bool): (r: seq<K>)
    ensures forall k :: k in r <==> k in keys && keep(k)
    decreases |keys|
  {
    if keys == [] then []
    else (if keep(keys[0]) then [keys[0]] else []) + Select(keys[1..], keep)
  }

  /** Selection distributes over concatenation: selected keys keep their
      order. */
  lemma {:induction false} SelectAppend<K(!new)>(a: seq<K>, b: seq<K>, keep: K -> bool)
    ensures Select(a + b, keep) == Select(a, keep) + Select(b, keep)
    decreases |a|
  {
    if a == [] {
      assert a + b == b;
    } else {
      assert (a + b)[0] == a[0];
      assert (a + b)[1..] == a[1..] + b;
      SelectAppend(a[1..], b, keep);
    }
  }

  /** Distinct keys give distinct selected keys. */
  lemma {:induction false} SelectDistinct<K(!new)>(keys: seq<K>, keep: K -> bool)
    requires Distinct(keys)
    ensures Distinct(Select(keys, keep))
    decreases |keys|
  {
    if keys != [] {
      var tail := keys[1..];
      assert Distinct(tail) by {
        forall i, j | 0 <= i < j < |tail| ensures tail[i] != tail[j] {
          assert tail[i] == keys[i + 1] && tail[j] == keys[j + 1];
        }
      }
      SelectDistinct(tail, keep);
      assert keys[0] !in tail by {
        forall i | 0 <= i < |tail| ensures tail[i] != keys[0] {
          assert tail[i] == keys[i + 1];
        }
      }
    }
  }

  /** The loop: for every key in order, when it passes `keep`, write
      `render(key)` and a line break. */
  function Emit<K>(keys: seq<K>, keep: K -> bool, render: K -> string): string
    decreases |keys|
  {
    if keys == [] then ""
    else (if keep(keys[0]) then render(keys[0]) + "\n" else "") + Emit(keys[1..], keep, render)
  }

  /** The loop writes exactly the renderings of the selected keys, one per
      line, in key order. */
  lemma {:induction false} EmitLines<K(!new)>(keys: seq<K>, keep: K -> bool, render: K -> string)
    ensures Emit(keys, keep, render) == Unlines(Map(Select(keys, keep), render))
    decreases |keys|
  {
    if keys != [] {
      var tail := keys[1..];
      EmitLines(tail, keep, render);
      var rest := Map(Select(tail, keep), render);
      if keep(keys[0]) {
        var all := Map(Select(keys, keep), render);
        assert Select(keys, keep) == [keys[0]] + Select(tail, keep);
        assert all[1..] == rest;
      } else {
        assert Select(keys, keep) == Select(tail, keep);
      }
    }
  }

  /** Reading back what the loop wrote gives the renderings of the selected
      keys, when no rendering holds a line break. */
  lemma EmitRoundTrip<K(!new)>(keys: seq<K>, keep: K -> bool, render: K -> string)
    requires forall k :: k in keys && keep(k) ==> '\n' !in render(k)
    ensures ReadLines(Emit(keys, keep, render)) == Map(Select(keys, keep), render)
  {
    EmitLines(keys, keep, render);
    var sel := Select(keys, keep);
    forall i | 0 <= i < |sel| ensures '\n' !in Map(sel, render)[i] {
      assert sel[i] in sel;
    }
    LinesRoundTrip(Map(sel, render));
  }
}

=== FILE: pretty.dfy ===
/** `ExifExtract.pretty_print_exif` (exif_extract.py lines 171-184): for
    every heading in heading order, one line `label: value` when the given
    record holds a true value for it, the file name excepted. */
module Pretty {
  import opened Basics
  import opened Values
  import opened Records
  import opened Strings
  import opened FieldNames
  import opened Consolidation
  import opened Listing

  /** Line 183: the field under `key` is printed when the record holds a
      true value for it and it is not the file name. */
  predicate Printed(rec: Record, key: string) {
    key != Filename && Get(rec, key).Some? && Truthy(Get(rec, key).value)
  }

  /** Line 184 without its line break: the heading's label, a colon and a
      space, and the value's text. The label is looked up only for printed
      headings, which have one. */
  function Line(aliases: map<string, string>, rec: Record, num: real -> string, key: string): string {
    if key in aliases && Get(rec, key).Some? then aliases[key] + ": " + Str(Get(rec, key).value, num) else ""
  }

  /** The printed headings, in heading order. */
  function Shown(headings: seq<string>, rec: Record): seq<string> {
    Select(headings, k => Printed(rec, k))
  }

  /** `pretty_print_exif(single_image_exif, outfile)`: the text written.
      Every heading must have a label, as line 184 looks it up. */
  function PrettyText(x: Extraction, rec: Record, num: real -> string): string
    requires AliasesCover(x)
  {
    Emit(x.headings, k => Printed(rec, k), k => Line(x.aliases, rec, num, k))
  }

  /** The printed headings are exactly the headings with a true value in the
      record other than the file name; they keep heading order and do not
      repeat when the headings do not. */
  lemma ShownSpec(x: Extraction, rec: Record)
    requires Distinct(x.headings)
    ensures forall k :: k in Shown(x.headings, rec) <==>
              k in x.headings && k != Filename && Get(rec, k).Some? && Truthy(Get(rec, k).value)
    ensures Distinct(Shown(x.headings, rec))
    ensures forall a, b :: a + b == x.headings ==> Shown(x.headings, rec) == Shown(a, rec) + Shown(b, rec)
  {
    SelectDistinct(x.headings, k => Printed(rec, k));
    forall a, b | a + b == x.headings
      ensures Shown(x.headings, rec) == Shown(a, rec) + Shown(b, rec)
    {
      SelectAppend(a, b, k => Printed(rec, k));
    }
  }

  /** The printed text, whatever the labels and values hold: the line of
      every printed heading, in heading order, each ended by a line break,
      where a printed heading's line is its label, a colon and a space,
      and the value's text. */
  lemma PrettyLines(x: Extraction, rec: Record, num: real -> string)
    requires AliasesCover(x)
    ensures PrettyText(x, rec, num) == Unlines(Map(Shown(x.headings, rec), k => Line(x.aliases, rec, num, k)))
    ensures forall k :: k in x.headings && Printed(rec, k) ==>
              Line(x.aliases, rec, num, k) == x.aliases[k] + ": " + Str(Get(rec, k).value, num)
  {
    EmitLines(x.headings, k => Printed(rec, k), k => Line(x.aliases, rec, num, k));
  }

  /** Reading back the printed text: one line per printed heading, in
      heading order, each the heading's label, a colon and a space, and the
      value's text; provided labels and printed values have no line
      break. */
  lemma PrettyRoundTrip(x: Extraction, rec: Record, num: real -> string)
    requires AliasesCover(x)
    requires forall k :: k in x.headings ==> '\n' !in x.aliases[k]
    requires forall k :: k in x.headings && Printed(rec, k) ==> '\n' !in Str(Get(rec, k).value, num)
    ensures |ReadLines(PrettyText(x, rec, num))| == |Shown(x.headings, rec)|
    ensures forall i :: 0 <= i < |Shown(x.headings, rec)| ==>
              Printed(rec, Shown(x.headings, rec)[i]) &&
              ReadLines(PrettyText(x, rec, num))[i] ==
                x.aliases[Shown(x.headings, rec)[i]] + ": " + Str(Get(rec, Shown(x.headings, rec)[i]).value, num)
  {
    var keep := k => Printed(rec, k);
    var render := k => Line(x.aliases, rec, num, k);
    var keys := Shown(x.headings, rec);
    forall k | k in x.headings && keep(k) ensures '\n' !in render(k) {
      assert '\n' !in ": ";
    }
    EmitRoundTrip(x.headings, keep, render);
    forall i | 0 <= i < |keys|
      ensures Printed(rec, keys[i])
      ensures Map(keys, render)[i] ==
                x.aliases[keys[i]] + ": " + Str(Get(rec, keys[i]).value, num)
    {
      assert keys[i] in keys;
    }
  }
}

=== FILE: records.dfy ===
/** One image's fields as a Python dictionary: an insertion-ordered
    association list from field name to value. `d[k] = v` overwrites the
    value of a present key in place and appends a new key at the end;
    `d.get(k)` yields `None` for an absent key. */
module Records {
  import opened Basics
  import opened KeyOrder
  import opened Values

  type Record = seq<(string, Value)>

  /** The keys in insertion order (`list(d)`). */
  function Keys(d: Record): (ks: seq<string>)
    ensures |ks| == |d|
    ensures forall i :: 0 <= i < |d| ==> ks[i] == d[i].0
  {
    seq(|d|, i requires 0 <= i < |d| => d[i].0)
  }

  /** The representation invariant of a dictionary: no key twice. */
  predicate Valid(d: Record) {
    Distinct(Keys(d))
  }

  /** `d.get(k)`. */
  function Get(d: Record, k: string): (r: Option<Value>)
    ensures r.Some? <==> k in Keys(d)
    ensures r.Some? ==> (k, r.value) in d
    ensures Valid(d) ==> forall v :: (k, v) in d ==> r == Some(v)
  {
    if d == [] then None
    else if d[0].0 == k then Some(d[0].1)
    else
      assert Keys(d[1..]) == Keys(d)[1..];
      Get(d[1..], k)
  }

  /** Appending pairs does not change the lookup of a key already
      present. */
  lemma {:induction false} GetAppend(d: Record, e: Record, k: string)
    requires k in Keys(d)
    ensures Get(d + e, k) == Get(d, k)
    decreases |d|
  {
    assert (d + e)[0] == d[0];
    if d[0].0 != k {
      assert (d + e)[1..] == d[1..] + e;
      assert Keys(d[1..]) == Keys(d)[1..];
      GetAppend(d[1..], e, k);
    }
  }

  /** `d[k] = v`. */
  function Put(d: Record, k: string, v: Value): (r: Record)
    ensures Keys(r) == if k in Keys(d) then Keys(d) else Keys(d) + [k]
    ensures Get(r, k) == Some(v)
    ensures forall k' :: k' != k ==> Get(r, k') == Get(d, k')
  {
    if d == [] then [(k, v)]
    else if d[0].0 == k then [(k, v)] + d[1..]
    else
      var u := Put(d[1..], k, v);
      PutCons(d, u, k, v);
      [d[0]] + u
  }

  /** Storing past the first pair: if `u` is `d[1..]` with `k` stored,
      keeping the first pair in front gives `d` with `k` stored. */
  lemma PutCons(d: Record, u: Record, k: string, v: Value)
    requires d != [] && d[0].0 != k
    requires Keys(u) == if k in Keys(d[1..]) then Keys(d[1..]) else Keys(d[1..]) + [k]
    requires Get(u, k) == Some(v)
    requires forall k' :: k' != k ==> Get(u, k') == Get(d[1..], k')
    ensures Keys([d[0]] + u) == if k in Keys(d) then Keys(d) else Keys(d) + [k]
    ensures Get([d[0]] + u, k) == Some(v)
    ensures forall k' :: k' != k ==> Get([d[0]] + u, k') == Get(d, k')
  {
    ConsKeys(d, u, k);
    GetFirst([d[0]] + u, k);
    forall k' | k' != k ensures Get([d[0]] + u, k') == Get(d, k') {
      ConsGet(d, u, k');
    }
  }

  /** The keys part of `PutCons`. */
  lemma ConsKeys(d: Record, u: Record, k: string)
    requires d != [] && d[0].0 != k
    requires Keys(u) == if k in Keys(d[1..]) then Keys(d[1..]) else Keys(d[1..]) + [k]
    ensures Keys([d[0]] + u) == if k in Keys(d) then Keys(d) else Keys(d) + [k]
  {
    assert Keys(d) == [d[0].0] + Keys(d[1..]);
    assert Keys([d[0]] + u) == [d[0].0] + Keys(u);
  }

  /** Lookups agree on two records with the same first pair whose rests
      agree. */
  lemma ConsGet(d: Record, u: Record, k: string)
    requires d != [] && Get(u, k) == Get(d[1..], k)
    ensures Get([d[0]] + u, k) == Get(d, k)
  {
    GetFirst([d[0]] + u, k);
    GetFirst(d, k);
    assert ([d[0]] + u)[1..] == u;
  }

  /** A lookup checks the first pair, then the rest. */
  lemma GetFirst(d: Record, k: string)
    requires d != []
    ensures Get(d, k) == if d[0].0 == k then Some(d[0].1) else Get(d[1..], k)
  {
  }

  /** Storing under a new key appends the pair. */
  lemma {:induction false} PutFresh(d: Record, k: string, v: Value)
    requires k !in Keys(d)
    ensures Put(d, k, v) == d + [(k, v)]
    decreases |d|
  {
    if d != [] {
      assert d[0].0 != k && k !in Keys(d[1..]) by {
        assert Keys(d)[0] == d[0].0;
        assert Keys(d[1..]) == Keys(d)[1..];
      }
      PutFresh(d[1..], k, v);
      calc {
        Put(d, k, v);
        [d[0]] + Put(d[1..], k, v);
        [d[0]] + (d[1..] + [(k, v)]);
        { assert d == [d[0]] + d[1..]; }
        d + [(k, v)];
      }
    }
  }

  /** The value of the last pair with key `k` in `f`. */
  function LastValue(f: Record, k: string): Value
    requires k in Keys(f)
  {
    if f[|f| - 1].0 == k then f[|f| - 1].1
    else
      assert Keys(f[..|f| - 1]) == Keys(f)[..|f| - 1];
      LastValue(f[..|f| - 1], k)
  }

  /** Stores every pair of `f`, left to right, into `d`. The keys end up in
      `dict.fromkeys` order and each key holds the last value `f` gives it. */
  function PutAll(d: Record, f: Record): (r: Record)
    ensures Keys(r) == Insert(Keys(d), Keys(f))
    ensures forall k :: Get(r, k) == if k in Keys(f) then Some(LastValue(f, k)) else Get(d, k)
  {
    if f == [] then d
    else
      var init := f[..|f| - 1];
      var last := f[|f| - 1];
      assert Keys(f) == Keys(init) + [last.0];
      InsertAppend(Keys(d), Keys(init), [last.0]);
      Put(PutAll(d, init), last.0, last.1)
  }

  /** Copying pairs whose keys are new and pairwise distinct appends them
      as they are. */
  lemma {:induction false} PutAllFresh(d: Record, f: Record)
    requires Distinct(Keys(d) + Keys(f))
    ensures PutAll(d, f) == d + f
    decreases |f|
  {
    if f != [] {
      var init := f[..|f| - 1];
      var last := f[|f| - 1];
      FreshFront(d, f);
      PutAllFresh(d, init);
      PutFresh(d + init, last.0, last.1);
      calc {
        PutAll(d, f);
        Put(PutAll(d, init), last.0, last.1);
        Put(d + init, last.0, last.1);
        (d + init) + [last];
        { AppendSnoc(d, f); }
        d + f;
      }
    }
  }

  /** Distinct keys stay distinct without the last pair, whose key is new
      to the rest. */
  lemma FreshFront(d: Record, f: Record)
    requires Distinct(Keys(d) + Keys(f)) && |f| > 0
    ensures Distinct(Keys(d) + Keys(f[..|f| - 1]))
    ensures f[|f| - 1].0 !in Keys(d + f[..|f| - 1])
  {
    var init := f[..|f| - 1];
    var ks := Keys(d) + Keys(f);
    assert Keys(d) + Keys(init) == ks[..|ks| - 1] && f[|f| - 1].0 == ks[|ks| - 1] by {
      assert Keys(f) == Keys(init) + [f[|f| - 1].0];
    }
    DistinctLast(ks);
    assert Keys(d + init) == Keys(d) + Keys(init);
  }

  /** Storing into a dictionary keeps it free of duplicate keys. */
  lemma PutValid(d: Record, k: string, v: Value)
    requires Valid(d)
    ensures Valid(Put(d, k, v))
  {
    var ks := Keys(d);
    if k !in ks {
      forall i, j | 0 <= i < j < |ks + [k]|
        ensures (ks + [k])[i] != (ks + [k])[j]
      {
        if j == |ks| {
          assert (ks + [k])[i] == ks[i];
        }
      }
    }
  }

  /** Storing many pairs keeps a dictionary free of duplicate keys. */
  lemma PutAllValid(d: Record, f: Record)
    requires Valid(d)
    ensures Valid(PutAll(d, f))
  {
    InsertSpec(Keys(d), Keys(f));
  }
}

=== FILE: scenario.dfy ===
/** A two-file run worked through: file A has a make and a full GPS
    position, file B has a make and a model and no GPS fields. */
module Scenario {
  import opened Basics
  import opened KeyOrder
  import opened Values
  import opened Records
  import opened FieldNames
  import opened Coordinates
  import opened Batch
  import opened Consolidation

  /** A's record: the file name, the decoder's fields in `dir()` order, then
      the two decimal fields (exif_extract.py lines 103-115). */
  const RecordA: Record := [
    (Filename, Text("a.jpg")), (Latitude, Dms(10.0, 30.0, 0.0)), (LatitudeRef, Text("N")),
    (Longitude, Dms(20.0, 0.0, 0.0)), (LongitudeRef, Text("W")), ("make", Text("Acme")),
    (LatDecimal, Number(10.5)), (LonDecimal, Number(-20.0))]

  /** B's record: the file name and the decoder's fields. */
  const RecordB: Record := [(Filename, Text("b.jpg")), ("make", Text("Acme")), ("model", Text("X1"))]

  /** The decimal values in A's record are the converted coordinates:
      10 degrees 30 minutes north and 20 degrees west. */
  lemma ScenarioCoordinates()
    ensures DecimalDegrees(10.0, 30.0, 0.0, Text("N")) == 10.5
    ensures DecimalDegrees(20.0, 0.0, 0.0, Text("W")) == -20.0
  {
  }

  /** What the decoder reports for A, in `dir()` order (alphabetical). */
  const FieldsA: seq<(string, Value)> := [
    (Latitude, Dms(10.0, 30.0, 0.0)), (LatitudeRef, Text("N")),
    (Longitude, Dms(20.0, 0.0, 0.0)), (LongitudeRef, Text("W")), ("make", Text("Acme"))]

  /** A's record before the decimal fields: the file name, then the
      decoder's fields as reported. */
  const CopiedA: Record := [(Filename, Text("a.jpg"))] + FieldsA

  /** A with the decimal latitude added. */
  const WithLatA: Record := CopiedA + [(LatDecimal, Number(10.5))]

  /** Lines 103-105 for A: every decoder field is new, so each is appended
      in turn. */
  lemma CopyA()
    ensures Copied("a.jpg", FieldsA) == CopiedA
  {
    var seed: Record := [(Filename, Text("a.jpg"))];
    assert Keys(seed) + Keys(FieldsA) == [Filename, Latitude, LatitudeRef, Longitude, LongitudeRef, "make"];
    PutAllFresh(seed, FieldsA);
  }

  /** What the decoder reports for B. */
  const FieldsB: seq<(string, Value)> := [("make", Text("Acme")), ("model", Text("X1"))]

  /** Lines 103-105 for B: both decoder fields are new. */
  lemma CopyB()
    ensures Copied("b.jpg", FieldsB) == RecordB
  {
    var seed: Record := [(Filename, Text("b.jpg"))];
    assert Keys(seed) + Keys(FieldsB) == [Filename, "make", "model"];
    PutAllFresh(seed, FieldsB);
  }

  /** B's record has no raw GPS field. */
  lemma RecordBNoGps()
    ensures Get(RecordB, Latitude).None? && Get(RecordB, Longitude).None?
  {
    assert Keys(RecordB) == [Filename, "make", "model"];
  }

  /** B has no GPS fields, so its record is the file name and the decoder's
      fields, with no decimal field added. */
  lemma BuildB()
    ensures BuildRecord("b.jpg", FieldsB) == Success(RecordB)
  {
    CopyB();
    RecordBNoGps();
  }

  /** The two input files of the run. */
  const Inputs := [Input("a.jpg", Fields(FieldsA)), Input("b.jpg", Fields(FieldsB))]

  /** File A adds its record. */
  lemma OutcomeA()
    ensures FileOutcome(Input("a.jpg", Fields(FieldsA))) == Success(Some(RecordA))
  {
    BuildA();
  }

  /** File B adds its record. */
  lemma OutcomeB()
    ensures FileOutcome(Input("b.jpg", Fields(FieldsB))) == Success(Some(RecordB))
  {
    BuildB();
  }

  /** Mapping over two elements. */
  lemma MapPair<A, B>(s: seq<A>, f: A -> B)
    requires |s| == 2
    ensures Map(s, f) == [f(s[0]), f(s[1])]
  {
  }

  /** Each file of the run adds its record. */
  lemma ScenarioEffects()
    ensures Effects(Inputs) == [Success(Some(RecordA)), Success(Some(RecordB))]
  {
    OutcomeA();
    OutcomeB();
    MapPair(Inputs, FileOutcome);
  }

  /** Two files that each add a record give a table of those two
      records. */
  lemma TablePair<R, E>(a: R, b: R)
    ensures AllSucceed<R, E>([Success(Some(a)), Success(Some(b))])
    ensures Table<R, E>([Success(Some(a)), Success(Some(b))]) == [a, b]
  {
    var effects: seq<Result<Option<R>, E>> := [Success(Some(a)), Success(Some(b))];
    assert effects[..1] == [Success(Some(a))];
    assert effects[..1][..0] == [];
    assert Table(effects[..1]) == Table(effects[..1][..0]) + [a];
    assert Table(effects) == Table(effects[..1]) + [b];
  }

  /** The run over A and B succeeds, its table is A's and B's records in
      that order, and its headings are the ones `ScenarioHeadings` gives. */
  lemma ScenarioRun()
    ensures AllSucceed(Effects(Inputs))
    ensures Table(Effects(Inputs)) == [RecordA, RecordB]
    ensures Headings(Table(Effects(Inputs)))
         == [Filename, LatDecimal, LonDecimal, Latitude, LatitudeRef, Longitude, LongitudeRef, "make", "model"]
  {
    ScenarioEffects();
    TablePair<Record, Error>(RecordA, RecordB);
    ScenarioHeadings();
  }

  /** The key lists of A's record before and after the latitude step. */
  lemma CopiedAKeys()
    ensures Keys(CopiedA) == [Filename, Latitude, LatitudeRef, Longitude, LongitudeRef, "make"]
    ensures Keys(WithLatA) == [Filename, Latitude, LatitudeRef, Longitude, LongitudeRef, "make", LatDecimal]
  {
  }

  /** Neither step overwrites a field: each writes a new key, and the
      second step completes A's record. */
  lemma StepsFresh()
    ensures LatDecimal !in Keys(CopiedA)
    ensures LonDecimal !in Keys(WithLatA)
    ensures WithLatA + [(LonDecimal, Number(-20.0))] == RecordA
  {
    CopiedAKeys();
  }

  /** Looking up A's raw latitude in the copied record. */
  lemma CopiedALatitude()
    ensures Get(CopiedA, Latitude) == Some(Dms(10.0, 30.0, 0.0))
  {
    assert CopiedA[0].0 != Latitude;
    assert CopiedA[1..] == FieldsA;
    assert FieldsA[0] == (Latitude, Dms(10.0, 30.0, 0.0));
  }

  /** Looking up A's latitude reference in the copied record. */
  lemma CopiedALatitudeRef()
    ensures Get(CopiedA, LatitudeRef) == Some(Text("N"))
  {
    assert CopiedA[0].0 != LatitudeRef;
    assert CopiedA[1..] == FieldsA;
    assert FieldsA[0].0 != LatitudeRef;
    assert Get(FieldsA, LatitudeRef) == Get(FieldsA[1..], LatitudeRef);
    assert FieldsA[1..][0] == (LatitudeRef, Text("N"));
  }

  /** Looking up A's raw longitude in the copied record. */
  lemma CopiedALongitude()
    ensures Get(CopiedA, Longitude) == Some(Dms(20.0, 0.0, 0.0))
  {
    assert CopiedA[0].0 != Longitude;
    assert CopiedA[1..] == FieldsA;
    assert FieldsA[0].0 != Longitude;
    assert Get(FieldsA, Longitude) == Get(FieldsA[1..], Longitude);
    assert FieldsA[1..][0].0 != Longitude;
    assert Get(FieldsA[1..], Longitude) == Get(FieldsA[2..], Longitude);
    assert FieldsA[2..][0] == (Longitude, Dms(20.0, 0.0, 0.0));
  }

  /** Looking up A's longitude reference in the copied record. */
  lemma CopiedALongitudeRef()
    ensures Get(CopiedA, LongitudeRef) == Some(Text("W"))
  {
    assert CopiedA[0].0 != LongitudeRef;
    assert CopiedA[1..] == FieldsA;
    assert FieldsA[0].0 != LongitudeRef;
    assert Get(FieldsA, LongitudeRef) == Get(FieldsA[1..], LongitudeRef);
    assert FieldsA[1..][0].0 != LongitudeRef;
    assert Get(FieldsA[1..], LongitudeRef) == Get(FieldsA[2..], LongitudeRef);
    assert FieldsA[2..][0].0 != LongitudeRef;
    assert Get(FieldsA[2..], LongitudeRef) == Get(FieldsA[3..], LongitudeRef);
    assert FieldsA[3..][0] == (LongitudeRef, Text("W"));
  }

  /** The longitude step reads what the copied record holds. */
  lemma WithLatALookups()
    ensures Get(WithLatA, Longitude) == Some(Dms(20.0, 0.0, 0.0))
    ensures Get(WithLatA, LongitudeRef) == Some(Text("W"))
  {
    CopiedALongitude();
    CopiedALongitudeRef();
    GetAppend(CopiedA, [(LatDecimal, Number(10.5))], Longitude);
    GetAppend(CopiedA, [(LatDecimal, Number(10.5))], LongitudeRef);
  }

  /** Lines 108-111 for A: the decimal latitude is appended. */
  lemma LatitudeA()
    ensures AddDecimal(CopiedA, Latitude, LatitudeRef, LatDecimal) == Success(WithLatA)
  {
    CopiedALatitude();
    CopiedALatitudeRef();
    ScenarioCoordinates();
    assert AddDecimal(CopiedA, Latitude, LatitudeRef, LatDecimal) == Success(Put(CopiedA, LatDecimal, Number(10.5)));
    StepsFresh();
    PutFresh(CopiedA, LatDecimal, Number(10.5));
  }

  /** Lines 112-115 for A: the decimal longitude is appended. */
  lemma LongitudeA()
    ensures AddDecimal(WithLatA, Longitude, LongitudeRef, LonDecimal) == Success(RecordA)
  {
    WithLatALookups();
    ScenarioCoordinates();
    assert AddDecimal(WithLatA, Longitude, LongitudeRef, LonDecimal) == Success(Put(WithLatA, LonDecimal, Number(-20.0)));
    StepsFresh();
    PutFresh(WithLatA, LonDecimal, Number(-20.0));
  }

  /** A's record is what lines 103-115 build from the decoder's report. */
  lemma BuildA()
    ensures BuildRecord("a.jpg", FieldsA) == Success(RecordA)
  {
    CopyA();
    LatitudeA();
    LongitudeA();
  }

  /** The key lists of A's and B's records. */
  const KeysA := [Filename, Latitude, LatitudeRef, Longitude, LongitudeRef, "make", LatDecimal, LonDecimal]
  const KeysB := [Filename, "make", "model"]

  /** The headings after A: the three fixed headings, then A's raw GPS
      fields and make. */
  const AfterA := InitialHeadings + [Latitude, LatitudeRef, Longitude, LongitudeRef, "make"]

  /** A's heading update appends the keys of A that are not fixed
      headings, in A's key order. */
  lemma UnionA()
    ensures Union(InitialHeadings, KeysA) == AfterA
  {
    var added := [Latitude, LatitudeRef, Longitude, LongitudeRef, "make"];
    assert Distinct(AfterA);
    assert Distinct(InitialHeadings);
    UnionIsInsert(InitialHeadings, KeysA);
    assert KeysA == [Filename] + added + [LatDecimal, LonDecimal];
    InsertAppend(InitialHeadings, [Filename] + added, [LatDecimal, LonDecimal]);
    InsertAppend(InitialHeadings, [Filename], added);
    InsertKnown(InitialHeadings, [Filename]);
    InsertFresh(InitialHeadings, added);
    InsertKnown(AfterA, [LatDecimal, LonDecimal]);
  }

  /** B's heading update appends only its model. */
  lemma UnionB()
    ensures Union(AfterA, KeysB) == AfterA + ["model"]
  {
    var all := AfterA + ["model"];
    assert all == [Filename, LatDecimal, LonDecimal, Latitude, LatitudeRef, Longitude, LongitudeRef, "make", "model"];
    assert Distinct(all);
    assert Distinct(AfterA) by {
      forall i, j | 0 <= i < j < |AfterA| ensures AfterA[i] != AfterA[j] {
        assert AfterA[i] == all[i] && AfterA[j] == all[j];
      }
    }
    UnionIsInsert(AfterA, KeysB);
    assert KeysB == [Filename, "make"] + ["model"];
    InsertAppend(AfterA, [Filename, "make"], ["model"]);
    InsertKnown(AfterA, [Filename, "make"]);
    InsertFresh(AfterA, ["model"]);
  }

  /** The two heading updates of the run, on the key lists alone. */
  lemma ScenarioUnion()
    ensures Union(Union(InitialHeadings, KeysA), KeysB)
         == [Filename, LatDecimal, LonDecimal, Latitude, LatitudeRef, Longitude, LongitudeRef, "make", "model"]
  {
    UnionA();
    UnionB();
  }

  /** The headings after A and B: the three fixed headings, then A's raw GPS
      fields and make in A's key order, then B's model. The raw GPS fields
      are headings too, since every key of a record is one. */
  lemma ScenarioHeadings()
    ensures Headings([RecordA, RecordB])
         == [Filename, LatDecimal, LonDecimal, Latitude, LatitudeRef, Longitude, LongitudeRef, "make", "model"]
  {
    assert Keys(RecordA) == KeysA;
    assert Keys(RecordB) == KeysB;
    assert [RecordA, RecordB][..1] == [RecordA];
    assert [RecordA][..0] == [];
    assert Grow(InitialHeadings, Keys, [RecordA]) == Union(InitialHeadings, KeysA);
    ScenarioUnion();
  }
}

=== FILE: strings.dfy ===
/** The Python string operations the engine relies on: `str.replace` and
    `str.join`. */
module Strings {

  /** `s.replace(pat, rep)`: every non-overlapping occurrence of `pat`,
      scanning left to right, is replaced by `rep`. */
  function ReplaceAll(s: string, pat: string, rep: string): (r: string)
    requires |pat| > 0
    ensures |pat| == |rep| ==> |r| == |s|
    ensures forall c :: c in r ==> c in s || c in rep
    ensures |pat| == 1 && pat[0] !in rep ==> pat[0] !in r
    decreases |s|
  {
    if |s| < |pat| then s
    else if s[..|pat|] == pat then rep + ReplaceAll(s[|pat|..], pat, rep)
    else [s[0]] + ReplaceAll(s[1..], pat, rep)
  }

  /** Replacing a single character, described character by character: each
      occurrence of `c` becomes `rep`, every other character stays. */
  function SubstituteChar(s: string, c: char, rep: string): string {
    if s == [] then []
    else (if s[0] == c then rep else [s[0]]) + SubstituteChar(s[1..], c, rep)
  }

  /** For a one-character pattern, `str.replace` is character-wise
      substitution. */
  lemma {:induction false} ReplaceOneChar(s: string, c: char, rep: string)
    ensures ReplaceAll(s, [c], rep) == SubstituteChar(s, c, rep)
    decreases |s|
  {
    if s != [] {
      assert s[..1] == [s[0]];
      assert s[1..] == s[|[c]|..];
      ReplaceOneChar(s[1..], c, rep);
    }
  }

  /** `sep.join(parts)`. */
  function Join(parts: seq<string>, sep: string): string {
    if |parts| == 0 then ""
    else if |parts| == 1 then parts[0]
    else parts[0] + sep + Join(parts[1..], sep)
  }

  /** The text written by one `write(line + '\n')` call per line. */
  function Unlines(lines: seq<string>): string {
    if lines == [] then "" else lines[0] + "\n" + Unlines(lines[1..])
  }

  /** Reads newline-terminated lines back; `cur` is the unfinished line so
      far. A final line without a terminator is kept. */
  function ReadLinesFrom(s: string, cur: string): seq<string>
    decreases |s|
  {
    if s == [] then (if cur == "" then [] else [cur])
    else if s[0] == '\n' then [cur] + ReadLinesFrom(s[1..], "")
    else ReadLinesFrom(s[1..], cur + [s[0]])
  }

  function ReadLines(s: string): seq<string> {
    ReadLinesFrom(s, "")
  }

  /** Reading across one line without a line break. */
  lemma {:induction false} ReadLineAcross(line: string, rest: string, cur: string)
    requires '\n' !in line
    ensures ReadLinesFrom(line + "\n" + rest, cur) == [cur + line] + ReadLinesFrom(rest, "")
    decreases |line|
  {
    if line == [] {
      var s := line + "\n" + rest;
      assert s[0] == '\n' && s[1..] == rest;
      assert cur + line == cur;
    } else {
      assert (line + "\n" + rest)[1..] == line[1..] + "\n" + rest;
      assert cur + [line[0]] + line[1..] == cur + line;
      ReadLineAcross(line[1..], rest, cur + [line[0]]);
    }
  }

  /** Lines without line breaks are read back exactly as written. */
  lemma {:induction false} LinesRoundTrip(lines: seq<string>)
    requires forall i :: 0 <= i < |lines| ==> '\n' !in lines[i]
    ensures ReadLines(Unlines(lines)) == lines
    decreases |lines|
  {
    if lines != [] {
      LinesRoundTrip(lines[1..]);
      ReadLineAcross(lines[0], Unlines(lines[1..]), "");
      assert "" + lines[0] == lines[0];
    }
  }
}

=== FILE: values.dfy ===
/** The values a decoder hands back, as far as the consolidation engine can
    tell them apart, and the two Python built-ins the engine applies to
    them: `str()` and truth testing. */
module Values {

  /** A decoded field value. `Dms` is a GPS degree/minute/second triple,
      `Nothing` is Python's `None`, and `Opaque` is any other decoder value,
      given by its `str()` text and its truthiness. */
  datatype Value =
    | Text(s: string)
    | Number(x: real)
    | Dms(deg: real, min: real, sec: real)
    | Nothing
    | Opaque(text: string, truthy: bool)

  /** Python truth testing: empty strings, zero, and `None` are false; a
      three-element tuple is true. */
  predicate Truthy(v: Value) {
    match v
    case Text(s) => s != ""
    case Number(x) => x != 0.0
    case Dms(_, _, _) => true
    case Nothing => false
    case Opaque(_, t) => t
  }

  /** Python `str()`. The text of a floating-point number is the parameter
      `num`, which stands for Python's float formatting. */
  function Str(v: Value, num: real -> string): (r: string)
    ensures v.Text? ==> r == v.s
    ensures v.Nothing? ==> r == "None"
  {
    match v
    case Text(s) => s
    case Number(x) => num(x)
    case Dms(d, m, s) => "(" + num(d) + ", " + num(m) + ", " + num(s) + ")"
    case Nothing => "None"
    case Opaque(t, _) => t
  }
}
